=== FILE: README.md ===
# DOI author searcher — a Dafny model

This project models the `DOISearcher` class of `search_doi.py`. The class
is an interactive tool that:

- takes a DOI and checks its format;
- looks the paper up on Crossref, keeping a seven-day file cache of the answers;
- names the paper's first author and its corresponding author;
- fetches the corresponding author's recent PubMed papers as MEDLINE text and parses them;
- records each lookup in a session history, which can be exported as CSV rows.

The model is pure and functional. The searcher's mutable state is a
`Searcher.Session` value threaded through every operation. It holds:

- the pacing clock;
- the cache directory, as a map from path to parsed file content;
- the search history;
- a log of every outbound provider call, with the time the rate limiter released it.

Crossref and PubMed answers are parameters (`WorksReply`, `SearchReply`,
`FetchReply`), so each operation is a function of its inputs. Time is a
`real` number of seconds, and `time.sleep(d)` advances the clock by exactly
`d`.

Modules:

- `Strings`: the Python `str` operations the code uses (`isspace`, `strip`,
  `startswith`, slicing, `replace`, `split`, `join`).
- `Doi`: `validate_doi` and its pattern.
- `Works`: the Crossref author records and the first and corresponding
  author rules.
- `Cache`: the cache file name, read and write.
- `RateLimit`: `_wait_between_requests`.
- `Medline`: the MEDLINE parser inside `get_author_research`.
- `Searcher`: `get_paper_info`, `get_author_research`, `find_authors`, and
  runs of lookups.
- `Export`: the rows of `export_history`.
- `Base`: `Option` and a generic `FlatMap` with its lemmas.

## Model

| member | source | states |
|---|---|---|
| Doi.ValidateDoi | search_doi.py:49-51 | A DOI is accepted exactly when it matches `^10\.\d{4,9}/[-._;()/:\w]+$` as Python's `re.match` reads it. That includes `$` also matching before one final newline. The empty string is rejected. The pattern's reference reading is the declarative `PatternMatches`. |
| Doi.RecogniseIffFullMatch | search_doi.py:36 | The scanner, which takes the maximal digit run and then the suffix class, accepts exactly the strings the pattern body matches in full. Backtracking over `\d{4,9}` adds nothing, because '/' is not a digit. |
| Doi.ValidDoiShape | search_doi.py:36 | Every accepted DOI starts with "10.", is at least 9 characters long, and contains a '/'. |
| Doi.HelpExampleAccepted | search_doi.py:307 | The example DOI in the help text, 10.1038/s41586-020-2169-0, is valid. |
| Doi.IncompleteRejected | search_doi.py:49-51 | "" and "10.1038" are rejected. |
| Doi.TrailingNewlineAccepted | search_doi.py:36 | One trailing newline is tolerated by the end anchor. |
| Doi.TwoNewlinesRejected | search_doi.py:36 | Two trailing newlines are rejected. |
| Doi.LeadingSpaceRejected | search_doi.py:36 | The start anchor rejects a leading space. |
| Doi.ThreeDigitsRejected | search_doi.py:36 | A 3-digit registrant code is rejected. |
| Doi.RegistrantLengthBounds | search_doi.py:36 | A 10-digit registrant code is rejected and a 9-digit one is accepted. |
| Strings.Strip | search_doi.py:201 | `strip()` returns the part of the string between a blank prefix and a blank suffix, and that part neither starts nor ends with whitespace. It is "" exactly for a blank string. Whitespace is Python's full `isspace` set. |
| Strings.StripUnique | search_doi.py:201 | Any part that is left between a blank prefix and a blank suffix, and has no whitespace at either end, is the result of `strip()`. So the contract above determines the result. |
| Strings.StripIdempotent | search_doi.py:201 | Stripping twice is stripping once. |
| Strings.Split | search_doi.py:155 | `split(sep)` always yields at least one part. The first part is a prefix of the text, and no part contains the separator. The first cut is the leftmost one: `sep` starts at no position inside the first part. |
| Strings.SplitAfterFirstCut | search_doi.py:155 | When there is more than one part, `sep` occurs right after the first part, and the remaining parts are the split of the text after that occurrence. |
| Strings.JoinSplit | search_doi.py:155 | Joining the parts of `split(sep)` with `sep` gives back the original text, so splitting loses nothing. |
| Works.FullName | search_doi.py:201 | An author's name is the given name, a space and the family name, with a missing part read as "", stripped of whitespace at both ends. |
| Works.FullNameEmpty | search_doi.py:212 | A name is empty exactly when both the given and the family name are blank or missing. This is the case in which the marked author loses to the last author. |
| Works.FirstAuthor | search_doi.py:198-201 | There is a first author exactly when the author list is non-empty. It is the stripped "given family" of the first element. |
| Works.FirstAuthorIgnoresRest | search_doi.py:198-201 | The first author depends only on the first list element, whatever the markers and the later authors. |
| Works.CorrespondingAuthor | search_doi.py:203-214 | Empty list: none. If an author is marked `sequence == "additional"` with contributor-role function "corresponding", the marked author nearest the end wins. If that author's name is empty, or no author is marked, the last author is used. |
| Works.CorrespondingAuthorFromList | search_doi.py:203-214 | A non-empty list always yields a corresponding author, and it is the name of one of the list's authors. |
| Works.MarkedAuthorExample | search_doi.py:198-214 | With "A One" first and "B Two" marked corresponding, those are the first and corresponding authors. |
| Cache.CacheFileName | search_doi.py:53-55 | The file name is the DOI with every '/' replaced by '_', followed by ".json". It contains no '/'. |
| Cache.PathJoin | search_doi.py:55 | `os.path.join` returns an absolute name unchanged; a relative name ends up directly inside the directory, after at most one '/', and after a '/' whenever the directory is non-empty. |
| Cache.CachePath | search_doi.py:53-55 | `os.path.join(cache_dir, name)` places the file directly under the cache directory. The path is the directory, then at most one '/', then the file name. With a non-empty directory, the character just before the file name is '/'. |
| Cache.CacheFileNameInjective | search_doi.py:53-55 | DOIs without '_' map to distinct cache files. |
| Cache.CollidingDois | search_doi.py:53-55 | "10.1234/a_b" and "10.1234/a/b" are both valid, yet they share one cache file name. |
| Cache.DistinctDoisShareCacheEntry | search_doi.py:53-87 | As a result, a read of one of those two DOIs returns the message saved for the other. |
| Cache.GetFromCache | search_doi.py:57-72 | The read returns the file's `data` exactly when caching is on, the file exists and parses, its timestamp is present and readable, and the entry is at most seven days old. Every other case is a miss. |
| Cache.SaveToCache | search_doi.py:74-87 | With caching off, nothing changes. Otherwise the DOI's file is added or replaced and then holds the current time and the message. Every other file is kept. |
| Cache.SaveThenGet | search_doi.py:57-87 | A save followed by a read of the same DOI returns the saved message exactly when caching is on and at most seven days have passed. |
| Cache.SaveLeavesOtherEntries | search_doi.py:57-87 | A save does not change reads of DOIs with a different cache path. |
| Cache.FreshnessWindow | search_doi.py:68 | An entry saved six days ago is returned; one saved eight days ago is not. |
| RateLimit.SleepFor | search_doi.py:89-93 | The sleep is never negative. It covers whatever is missing of `min_delay` since the last request, and is zero or exactly that shortfall. |
| RateLimit.Throttle | search_doi.py:89-94 | After the wait, the last request time equals the release time. It is at least `min_delay` after the previous one. When the call waited, it is exactly `min_delay` after the previous one. |
| RateLimit.ConsecutiveReleasesSpaced | search_doi.py:89-94 | Two throttled calls, with any pause between them, are released at least `min_delay` apart. |
| RateLimit.NoWaitWhenIdle | search_doi.py:91-94 | Once `min_delay` has passed, no sleep happens. |
| Searcher.SpacedPairwise | search_doi.py:89-94 | In a log where consecutive calls are `min_delay` apart, any two calls are `min_delay` apart per call between them. |
| Searcher.NewSession | search_doi.py:43-47 | A new searcher has an empty history and has sent nothing, and its pacing invariant holds. Its last request time is 0 seconds since the epoch, so its first request is not delayed. |
| Searcher.Send | search_doi.py:89-94 | Each provider call waits exactly as `_wait_between_requests` says and is then appended to the log with its release time. Earlier calls are kept and the pacing invariant is preserved. |
| Medline.TagValue | search_doi.py:164-169 | The value of a `TI` or `TA` line is the text after the six-character tag field, stripped. For `DP` it is the first four characters of that stripped text, or all of it when shorter. |
| Medline.StepLineField | search_doi.py:164-169 | A line sets exactly the field of the tag it starts with. The three prefixes exclude each other, so the `elif` order never matters. |
| Medline.ScanLinesLastWins | search_doi.py:159-169 | Each field holds the value of the last line carrying its tag, or stays as it was when no line carries it. |
| Medline.ParseBlock | search_doi.py:159-176 | A record yields a paper only when it has a non-empty title. The paper's year has at most four characters. |
| Medline.ParseBlockReadsLastTags | search_doi.py:159-169 | A record's title, journal and year come from its last `TI`, `TA` and `DP` lines, and are absent when there is no such line. |
| Medline.ParseBlockPaper | search_doi.py:159-176 | A kept record's journal and year are the values of its last `TA` and `DP` lines, or absent when it has none. |
| Medline.ParseBlockKeepsTitled | search_doi.py:171-176 | A record is kept exactly when its last `TI` value is non-empty, and that value is the title. |
| Medline.UntitledBlockDropped | search_doi.py:171 | A record without a `TI` line contributes nothing. |
| Medline.ParseBlocksWellFormed | search_doi.py:154-176 | The parser yields at most one paper per non-blank record, each with a non-empty title and a year of at most four characters. |
| Medline.ParseMedline | search_doi.py:154-176 | The papers of a fetched text: at most one per non-blank `\n\n`-separated record, all well-formed. |
| Medline.ParseMedlineOneRecord | search_doi.py:155-176 | A fetched text with no blank-line separator is parsed as one record: its paper when it is non-blank and has a title, nothing otherwise. |
| Medline.ParseBlocksSingle | search_doi.py:155-176 | A single record yields its one paper when it is non-blank and has a title, and nothing otherwise. |
| Medline.ParseBlocksAppend | search_doi.py:155-176 | Parsing the concatenation of two record lists gives the concatenation of their papers, so record order is kept. |
| Medline.ParseBlocksSources | search_doi.py:155-176 | The k-th paper is the parse of some record at position k or later. |
| Searcher.GetPaperInfo | search_doi.py:96-125 | An invalid DOI returns nothing and changes nothing. A cache hit returns the cached message, with no request and no change. Otherwise it makes exactly one throttled Crossref call. A returned message is cached and returned. Otherwise the result is nothing and the cache is unchanged. The history is never touched. Pacing is preserved. |
| Searcher.GetAuthorResearch | search_doi.py:127-187 | There is always one throttled PubMed search. A failed or empty search gives the empty profile after that one call. Otherwise there is a second throttled fetch of the comma-joined ids. A non-empty profile is always the parsed papers of the fetched text with the reported count. Every failure gives the empty profile. The search is released at the first throttled time and the fetch at the second; the clock afterwards reflects exactly the calls that were made. |
| Searcher.PaperAuthors | search_doi.py:192-195 | `find_authors` goes on only when the lookup returned a non-empty message with an `author` key, and then uses that list. |
| Searcher.ResearchFor | search_doi.py:216-220 | A profile is fetched exactly when the corresponding author name is present and non-empty. It is the profile `get_author_research` returns for that name with 10 results, and the session afterwards is the one that call leaves. |
| Searcher.FindAuthors | search_doi.py:189-231 | Without a paper or an author list: nothing is returned or recorded. Otherwise the first and corresponding authors follow the rules above, and a profile exists exactly for a non-empty corresponding name. One history entry is appended, holding those values, and only for a valid DOI. The request log only grows, and pacing is preserved. |
| Searcher.RecordLookup | search_doi.py:195-231 | Once the author list is known, exactly one history entry is appended and earlier entries are kept. A profile is present exactly when the corresponding author name is present and non-empty. Without a profile, no request is made and the clock is untouched. |
| Searcher.FindAuthorsNoProfile | search_doi.py:216-228 | Without a profile, `find_authors` makes no request after the paper lookup, and the entry is stamped with the time that lookup left. |
| Searcher.RecordLookupProfile | search_doi.py:216-220 | For a non-empty corresponding author name, the profile, the request log and the clock after the lookup are those `get_author_research` leaves for that name with 10 results. |
| Searcher.FindAuthorsProfile | search_doi.py:216-228 | The profile `find_authors` returns and records is the one `get_author_research` fetches for the corresponding author, with 10 results, after the paper lookup. |
| Searcher.EmptyAuthorListRecorded | search_doi.py:203-228 | A paper with an empty author list is still recorded, with no corresponding author and no profile. |
| Searcher.InvalidDoiIsInert | search_doi.py:189-193 | An invalid DOI leaves the whole session unchanged and yields no authors. |
| Searcher.FetchedPaperIsCached | search_doi.py:103-120 | With caching on, a valid DOI that is not yet cached is fetched from Crossref and saved. Any lookup of the same DOI within the next seven days is then served from the cache: it returns that message, sends no request and changes nothing. |
| Searcher.RunQueriesAppendOnly | search_doi.py:223-229 | Over any run of lookups the history is append-only and gains at most one entry per lookup. The request log only grows, every recorded DOI is valid, and all calls stay paced. |
| Searcher.WorkedExample | search_doi.py:189-231 | Looking up the help-text DOI whose authors are "A One" (first) and "B Two" (marked corresponding) yields and records those names. |
| Export.PaperLabel | search_doi.py:260 | A preview label is the paper's title, then " (", then the year, or `None` when the year is missing, then ")". |
| Export.WriteRows | search_doi.py:255-270 | Rows follow the history in order, one per entry, with the entry's DOI, authors, time, paper count and preview. The loop completes exactly when every entry has a profile. Otherwise it stops at the first entry without one. |
| Export.ExportHistory | search_doi.py:233-276 | An empty history exports nothing. With no file name, the name is `search_history_<stamp>.csv`. Otherwise the export writes every row, or fails after exactly the rows before the first profile-less entry. |
| Export.WriteRowsAppend | search_doi.py:255-270 | A new entry appended to a fully exportable history adds its row at the end. |
| Export.RecentPapers | search_doi.py:256-261 | The preview is empty exactly when the profile lists no papers. |
| Export.RecentPapersJoin | search_doi.py:258-261 | The preview of one paper is its label. With two or more papers it is the first label, "; ", and the preview of the next one or two papers. |
| Export.RecentPapersShape | search_doi.py:258-261 | The preview begins with the first paper's label, and so with its title, and ignores papers after the third. |
| Export.ExportRowsIgnoreFileName | search_doi.py:239-270 | The rows do not depend on the file name or the time: two exports of the same history write the same rows and succeed or fail together. |
| Export.ProfilelessEntryBreaksExport | search_doi.py:255-276 | An entry without a profile makes every later export fail, after the rows of the entries before it. |
| Export.EmptyAuthorListBreaksExport | search_doi.py:195-257 | A paper with an empty author list is recorded without a profile, after which the session's export fails. |
| Export.IntendedRows | search_doi.py:256-268 | The corrected loop writes one row per entry. A profile-less entry keeps its DOI, authors and timestamp, counts 0 papers and has an empty preview. |
| Export.IntendedRowsExtendWritten | search_doi.py:255-270 | The loop as written produces a prefix of the intended rows, and all of them exactly when it completes. |

## Left out

- Network access: the Crossref and PubMed calls are parameters standing for their answers. That covers `works`, `esearch` with `Entrez.read`, and `efetch`. So are the exceptions they raise, as `WorksError`, `SearchError` and `FetchError`.
- Disabling SSL verification, the contact e-mail and the tool name, and the API URL constants: configuration with no effect on the modelled behaviour.
- Creating the cache directory at construction, and failures when writing a cache file (which the code prints and ignores): the cache directory is a map, and a write always succeeds.
- JSON encoding and ISO-8601 formatting. A cache file's content is its parsed form, with an unreadable timestamp as `None`. History timestamps are the clock value.
- The header row's column titles are not modelled; a `Row` keeps its cells in the header's column order.
- CSV encoding, the UTF-8 BOM, and I/O errors when opening or writing the export file. Rows are kept as values. The formatted time in the default file name is the `stamp` parameter.
- Every `print` and `traceback` call, and the interactive `main` loop. `RunQueries` only models the lookups it makes.
- Network latency and floating-point rounding: a call takes no time, and a sleep lasts exactly as long as asked.
- Doi.ValidateDoi: `\d` and `\w` are restricted to ASCII digits, letters and '_', while Python's `str` patterns also accept other Unicode digits and letters.
- Works.FullName: author `given`/`family` values that are not strings, and a `contributor-role` that is not a dict, are not modelled.
- Cache.GetFromCache: cached `data` that is not a dict is not modelled; a message is always a dict.
- Searcher.GetAuthorResearch: the provider is assumed to honour `retmax`, and `Count` is given already converted (`None` when `int()` would fail).
- A message's keys other than `author` are kept only as a count, because only whether the dict is empty matters.

Three behaviours of the code worth knowing, all modelled as written:

- The export crashes on a profile-less entry; it does not write a count of 0 (see Findings).
- The last-author fallback also applies when the marked author's name is empty.
- A profile is fetched only for a non-empty corresponding author name.

## Findings

| source | as written | input that shows it | evidently intended | confidence | as-written member | corrected member |
|---|---|---|---|---|---|---|
| search_doi.py:257 | `record.get('research_info', {})` returns `None`, not `{}`, because every history entry stores the key, with value `None` when no profile was fetched. `.get('papers')` then raises, so the export stops after the rows before that entry. | A lookup of a valid DOI whose Crossref record has `author: []`, followed by `export_history()`. | A profile-less entry exports with paper count 0 and an empty preview, as the `{}` and `0` defaults suggest. | high (not executed) | Export.ProfilelessEntryBreaksExport | Export.IntendedRows |

=== FILE: base.dfy ===
/** Small shared datatypes used across the model. */
module Base {

  /** A present-or-absent value; stands for Python's `Optional[...]` and `None`. */
  datatype Option<+T> = None | Some(value: T) {

    /** The wrapped value, or `default` when absent (Python's `dict.get(key, default)`). */
    function GetOr(default: T): T {
      match this
      case Some(v) => v
      case None => default
    }
  }

  function Min(a: int, b: int): int {
    if a <= b then a else b
  }

  /** A prefix of a prefix is a prefix. */
  lemma PrefixOfPrefix<T>(a: seq<T>, b: seq<T>, c: seq<T>)
    requires |a| <= |b| <= |c| && b[..|a|] == a && c[..|b|] == b
    ensures c[..|a|] == a
  {
    assert c[..|a|] == c[..|b|][..|a|];
  }

  /** The results of `f` on each element, concatenated in order. */
  function FlatMap<A, B>(f: A -> seq<B>, xs: seq<A>): seq<B> {
    if xs == [] then [] else f(xs[0]) + FlatMap(f, xs[1..])
  }

  /** Mapping distributes over concatenation. */
  lemma {:induction false} FlatMapAppend<A, B>(f: A -> seq<B>, xs: seq<A>, ys: seq<A>)
    ensures FlatMap(f, xs + ys) == FlatMap(f, xs) + FlatMap(f, ys)
    decreases |xs|
  {
    if xs == [] {
      assert xs + ys == ys;
    } else {
      FlatMapAppend(f, xs[1..], ys);
      calc {
        FlatMap(f, xs + ys);
        { assert (xs + ys)[0] == xs[0]; assert (xs + ys)[1..] == xs[1..] + ys; }
        f(xs[0]) + FlatMap(f, xs[1..] + ys);
        f(xs[0]) + (FlatMap(f, xs[1..]) + FlatMap(f, ys));
        (f(xs[0]) + FlatMap(f, xs[1..])) + FlatMap(f, ys);
      }
    }
  }

  /**
   * When `f` yields at most one element, the `k`-th output is the whole
   * result of `f` on some input at position `k` or later.
   */
  lemma {:induction false} FlatMapSources<A, B>(f: A -> seq<B>, xs: seq<A>)
    requires forall x :: |f(x)| <= 1
    ensures |FlatMap(f, xs)| <= |xs|
    ensures forall k :: 0 <= k < |FlatMap(f, xs)| ==>
      exists j :: k <= j < |xs| && f(xs[j]) == [FlatMap(f, xs)[k]]
    decreases |xs|
  {
    if xs != [] {
      FlatMapSources(f, xs[1..]);
      var here, rest := f(xs[0]), FlatMap(f, xs[1..]);
      var all: seq<B> := here + rest;
      assert FlatMap(f, xs) == all;
      forall k | 0 <= k < |all|
        ensures exists j :: k <= j < |xs| && f(xs[j]) == [all[k]]
      {
        if k < |here| {
          assert f(xs[0]) == [all[k]];
        } else {
          var j :| k - |here| <= j < |xs[1..]| && f(xs[1..][j]) == [rest[k - |here|]];
          assert xs[1..][j] == xs[j + 1];
          assert f(xs[j + 1]) == [all[k]];
        }
      }
    }
  }
}

=== FILE: cache.dfy ===
/**
 * The on-disk cache of Crossref messages: the file name derived from a DOI
 * (search_doi.py:53-55), the freshness decision on read
 * (search_doi.py:57-72) and the write (search_doi.py:74-87). The cache
 * directory is a map from path to the parsed content of that file.
 */
module Cache {
  import opened Base
  import opened Strings
  import opened Works
  import Doi

  /** The lifetime of a cache entry: seven days, in seconds. */
  const CacheTtl: real := 7.0 * 24.0 * 3600.0

  /** The searcher's cache settings. */
  datatype Config = Config(useCache: bool, cacheDir: string)

  /**
   * What reading one cache file yields: `Corrupt` when `json.load` fails or
   * the content is not an object; otherwise the `timestamp` (absent when the
   * key is missing or not an ISO-8601 string) and the `data` entry.
   */
  datatype CacheFile =
    | Corrupt
    | CacheFile(timestamp: Option<real>, data: Option<Message>)

  type Files = map<string, CacheFile>

  /** The DOI with every slash turned into an underscore, followed by the `.json` extension. */
  function CacheFileName(doi: string): (name: string)
    ensures |name| == |doi| + 5
    ensures name[|doi|..] == ".json"
    ensures forall i :: 0 <= i < |doi| ==> name[i] == if doi[i] == '/' then '_' else doi[i]
    ensures '/' !in name
  {
    ReplaceChar(doi, '/', '_') + ".json"
  }

  /**
   * `path` names the entry `name` directly inside `dir`: the directory,
   * at most one '/', then the name, with '/' just before the name
   * whenever the directory is non-empty.
   */
  ghost predicate DirectlyUnder(dir: string, name: string, path: string) {
    && |path| >= |dir| + |name|
    && path[..|dir|] == dir
    && path[|path| - |name|..] == name
    && path[|dir|..|path| - |name|] in {"", "/"}
    && (dir != "" ==> path[|path| - |name| - 1] == '/')
  }

  /** `os.path.join(dir, name)` on POSIX: an absolute name replaces the directory. */
  function PathJoin(dir: string, name: string): (path: string)
    ensures StartsWith(name, "/") ==> path == name
    ensures !StartsWith(name, "/") ==> DirectlyUnder(dir, name, path)
  {
    if StartsWith(name, "/") then name
    else
      var sep := if dir == "" || dir[|dir| - 1] == '/' then "" else "/";
      JoinedPathShape(dir, sep, name);
      dir + sep + name
  }

  /** `_get_cache_path`: the file lies directly inside the cache directory. */
  function CachePath(cacheDir: string, doi: string): (path: string)
    ensures DirectlyUnder(cacheDir, CacheFileName(doi), path)
  {
    var name := CacheFileName(doi);
    assert !StartsWith(name, "/") by { assert name[0] in name; }
    PathJoin(cacheDir, name)
  }

  /** The directory, an optional '/' and a name: the name is preceded by '/' whenever the directory is non-empty. */
  lemma JoinedPathShape(dir: string, sep: string, name: string)
    requires sep == if dir == "" || dir[|dir| - 1] == '/' then "" else "/"
    ensures (dir + sep + name)[..|dir|] == dir
    ensures (dir + sep + name)[|dir + sep + name| - |name|..] == name
    ensures (dir + sep + name)[|dir|..|dir + sep + name| - |name|] == sep
    ensures dir != "" ==> (dir + sep + name)[|dir| + |sep| - 1] == '/'
  {
    ConcatEnds(dir, sep, name);
    if dir != "" && sep == "" {
      assert (dir + sep + name)[|dir| - 1] == dir[|dir| - 1];
    }
  }

  /** A three-part concatenation starts with its first part, ends with its last, and has the second between them. */
  lemma ConcatEnds(a: string, b: string, c: string)
    ensures (a + b + c)[..|a|] == a
    ensures (a + b + c)[|a + b + c| - |c|..] == c
    ensures (a + b + c)[|a|..|a + b + c| - |c|] == b
  {
  }

  /** DOIs without "_" get distinct cache files whenever they differ. */
  lemma CacheFileNameInjective(d1: string, d2: string)
    requires '_' !in d1 && '_' !in d2
    requires CacheFileName(d1) == CacheFileName(d2)
    ensures d1 == d2
  {
    var n1, n2 := CacheFileName(d1), CacheFileName(d2);
    forall i | 0 <= i < |d1| ensures d1[i] == d2[i] {
      assert n1[i] == n2[i];
      assert d1[i] != '_' by { assert d1[i] in d1; }
      assert d2[i] != '_' by { assert d2[i] in d2; }
    }
  }

  /**
   * `_get_from_cache`: the stored message is returned only when caching is
   * on, the file exists and parses, its timestamp is readable and at most
   * seven days old, and it holds a `data` entry; every other case is a miss.
   */
  function GetFromCache(cfg: Config, files: Files, doi: string, now: real): (r: Option<Message>)
    ensures r.Some? ==> cfg.useCache
    ensures r.Some? ==> CachePath(cfg.cacheDir, doi) in files
    ensures r.Some? ==> var f := files[CachePath(cfg.cacheDir, doi)];
      f.CacheFile? && f.timestamp.Some? && now - f.timestamp.value <= CacheTtl && f.data == r
    ensures cfg.useCache && CachePath(cfg.cacheDir, doi) in files ==>
      var f := files[CachePath(cfg.cacheDir, doi)];
      f.CacheFile? && f.timestamp.Some? && now - f.timestamp.value <= CacheTtl ==> r == f.data
  {
    if !cfg.useCache then None
    else
      var path := CachePath(cfg.cacheDir, doi);
      if path !in files then None
      else match files[path]
        case Corrupt => None
        case CacheFile(ts, data) =>
          if ts.None? then None
          else if now - ts.value <= CacheTtl then data
          else None
  }

  /** `_save_to_cache`: when caching is on, the DOI's file is replaced by `{timestamp: now, data: m}`. */
  function SaveToCache(cfg: Config, files: Files, doi: string, m: Message, now: real): (files': Files)
    ensures !cfg.useCache ==> files' == files
    ensures cfg.useCache ==> files'.Keys == files.Keys + {CachePath(cfg.cacheDir, doi)}
    ensures forall p :: p in files && p != CachePath(cfg.cacheDir, doi) ==> p in files' && files'[p] == files[p]
    ensures cfg.useCache ==> files'[CachePath(cfg.cacheDir, doi)] == CacheFile(Some(now), Some(m))
  {
    if !cfg.useCache then files
    else files[CachePath(cfg.cacheDir, doi) := CacheFile(Some(now), Some(m))]
  }

  /** A save followed by a read of the same DOI returns the saved message exactly while it is fresh. */
  lemma SaveThenGet(cfg: Config, files: Files, doi: string, m: Message, savedAt: real, now: real)
    ensures GetFromCache(cfg, SaveToCache(cfg, files, doi, m, savedAt), doi, now) ==
      if cfg.useCache && now - savedAt <= CacheTtl then Some(m) else None
  {
  }

  /** A save only affects reads of DOIs that map to the same file. */
  lemma SaveLeavesOtherEntries(cfg: Config, files: Files, doi: string, other: string, m: Message, savedAt: real, now: real)
    requires CachePath(cfg.cacheDir, doi) != CachePath(cfg.cacheDir, other)
    ensures GetFromCache(cfg, SaveToCache(cfg, files, doi, m, savedAt), other, now) == GetFromCache(cfg, files, other, now)
  {
  }

  /** An entry written six days ago is returned; one written eight days ago is a miss. */
  lemma FreshnessWindow(cfg: Config, files: Files, doi: string, m: Message, now: real)
    requires cfg.useCache
    ensures GetFromCache(cfg, SaveToCache(cfg, files, doi, m, now - 6.0 * 86400.0), doi, now) == Some(m)
    ensures GetFromCache(cfg, SaveToCache(cfg, files, doi, m, now - 8.0 * 86400.0), doi, now) == None
  {
    SaveThenGet(cfg, files, doi, m, now - 6.0 * 86400.0, now);
    SaveThenGet(cfg, files, doi, m, now - 8.0 * 86400.0, now);
  }

  /** "10.1234/a_b" and "10.1234/a/b" are both valid DOIs and have the same cache file name. */
  lemma CollidingDois()
    ensures Doi.ValidateDoi("10.1234/a_b") && Doi.ValidateDoi("10.1234/a/b")
    ensures CacheFileName("10.1234/a_b") == CacheFileName("10.1234/a/b")
  {
    CollidingDoisValid();
    CollidingDoisSameName();
  }

  lemma CollidingDoisValid()
    ensures Doi.ValidateDoi("10.1234/a_b") && Doi.ValidateDoi("10.1234/a/b")
  {
    assert Doi.ShapedAt("10.1234/a_b", 4);
    assert Doi.ShapedAt("10.1234/a/b", 4);
  }

  lemma CollidingDoisSameName()
    ensures CacheFileName("10.1234/a_b") == CacheFileName("10.1234/a/b")
  {
    var n1, n2 := CacheFileName("10.1234/a_b"), CacheFileName("10.1234/a/b");
    forall i | 0 <= i < |n1| ensures n1[i] == n2[i] {
      if i >= 11 {
        assert n1[11..][i - 11] == n2[11..][i - 11];
      }
    }
  }

  /**
   * Because of that, a read for one of them returns the message saved for
   * the other.
   */
  lemma DistinctDoisShareCacheEntry(cfg: Config, files: Files, m: Message, now: real)
    requires cfg.useCache
    ensures GetFromCache(cfg, SaveToCache(cfg, files, "10.1234/a_b", m, now), "10.1234/a/b", now) == Some(m)
  {
    CollidingDoisSameName();
    SameNameSharesEntry(cfg, files, "10.1234/a_b", "10.1234/a/b", m, now);
  }

  /** Two DOIs with the same cache file name read each other's saved message. */
  lemma SameNameSharesEntry(cfg: Config, files: Files, d1: string, d2: string, m: Message, now: real)
    requires cfg.useCache
    requires CacheFileName(d1) == CacheFileName(d2)
    ensures GetFromCache(cfg, SaveToCache(cfg, files, d1, m, now), d2, now) == Some(m)
  {
  }
}

=== FILE: doi.dfy ===
/**
 * DOI validation: the anchored pattern `^10\.\d{4,9}/[-._;()/:\w]+$`
 * (search_doi.py:36) as used by `validate_doi` (search_doi.py:49-51).
 *
 * `Recognise` is a direct scanner; `PatternMatches` is an independent,
 * declarative reading of the pattern. `ValidateDoi` is proved to agree with
 * the declarative reading on every string.
 */
module Doi {

  /** `\d`, restricted to ASCII. */
  predicate IsDigit(c: char) {
    '0' <= c <= '9'
  }

  /** `\w`, restricted to ASCII: letters, digits and underscore. */
  predicate IsWordChar(c: char) {
    ('a' <= c <= 'z') || ('A' <= c <= 'Z') || IsDigit(c) || c == '_'
  }

  /** A member of the suffix class `[-._;()/:\w]`. */
  predicate IsSuffixChar(c: char) {
    c in "-._;()/:" || IsWordChar(c)
  }

  /** Length of the longest prefix of `s` whose characters all satisfy `p`. */
  function Span(s: string, p: char -> bool): (n: nat)
    ensures n <= |s|
    ensures forall i :: 0 <= i < n ==> p(s[i])
    ensures n == |s| || !p(s[n])
    decreases |s|
  {
    if |s| > 0 && p(s[0]) then 1 + Span(s[1..], p) else 0
  }

  /**
   * Scanner for the pattern without its end anchor's newline allowance:
   * "10.", the maximal run of digits (4 to 9 of them), "/", and a non-empty
   * remainder made only of suffix characters.
   */
  predicate Recognise(s: string) {
    && |s| >= 3
    && s[..3] == "10."
    && var n := Span(s[3..], IsDigit);
    && 4 <= n <= 9
    && 3 + n + 1 < |s|
    && s[3 + n] == '/'
    && Span(s[3 + n + 1..], IsSuffixChar) == |s| - (3 + n + 1)
  }

  /** `s` is "10.", then exactly `k` digits with 4 <= k <= 9, then "/", then one or more suffix characters. */
  ghost predicate ShapedAt(s: string, k: int) {
    && 4 <= k <= 9
    && 3 + k + 1 < |s|
    && s[..3] == "10."
    && (forall i :: 3 <= i < 3 + k ==> IsDigit(s[i]))
    && s[3 + k] == '/'
    && (forall i :: 3 + k < i < |s| ==> IsSuffixChar(s[i]))
  }

  /** The whole of `s` matches the pattern body. */
  ghost predicate FullMatch(s: string) {
    exists k :: ShapedAt(s, k)
  }

  /** What `re.match` with `^...$` accepts: Python's `$` also matches just before one final newline. */
  ghost predicate PatternMatches(s: string) {
    || FullMatch(s)
    || (|s| > 0 && s[|s| - 1] == '\n' && FullMatch(s[..|s| - 1]))
  }

  /** The scanner accepts exactly the strings the pattern body matches in full. */
  lemma RecogniseIffFullMatch(s: string)
    ensures Recognise(s) <==> FullMatch(s)
  {
    if Recognise(s) {
      var n := Span(s[3..], IsDigit);
      forall i | 3 <= i < 3 + n ensures IsDigit(s[i]) {
        assert s[i] == s[3..][i - 3];
      }
      var rest := s[3 + n + 1..];
      forall i | 3 + n < i < |s| ensures IsSuffixChar(s[i]) {
        assert s[i] == rest[i - (3 + n + 1)];
      }
      assert ShapedAt(s, n);
    }
    if FullMatch(s) {
      var k :| ShapedAt(s, k);
      var n := Span(s[3..], IsDigit);
      var rest := s[3 + n + 1..];
      var m := Span(rest, IsSuffixChar);
    }
  }

  /** `validate_doi`: non-empty and matched by the anchored pattern. */
  function ValidateDoi(doi: string): (ok: bool)
    ensures ok <==> PatternMatches(doi)
  {
    RecogniseIffFullMatch(doi);
    if doi == "" then false
    else
      RecogniseIffFullMatch(doi[..|doi| - 1]);
      Recognise(doi) || (doi[|doi| - 1] == '\n' && Recognise(doi[..|doi| - 1]))
  }

  /** A valid DOI starts with "10.", is at least 9 characters long and contains a "/". */
  lemma ValidDoiShape(doi: string)
    requires ValidateDoi(doi)
    ensures |doi| >= 9 && doi[..3] == "10."
    ensures '/' in doi
  {
    if FullMatch(doi) {
      var k :| ShapedAt(doi, k);
      assert doi[3 + k] == '/';
    } else {
      var t := doi[..|doi| - 1];
      var k :| ShapedAt(t, k);
      assert doi[3 + k] == t[3 + k] == '/';
      assert doi[..3] == t[..3];
    }
  }

  /** The example identifier from the tool's help text is accepted. */
  lemma HelpExampleAccepted()
    ensures ValidateDoi("10.1038/s41586-020-2169-0")
  {
    assert ShapedAt("10.1038/s41586-020-2169-0", 4);
  }

  /** The empty string and a bare prefix without "/" and suffix are rejected. */
  lemma IncompleteRejected()
    ensures !ValidateDoi("")
    ensures !ValidateDoi("10.1038")
  {
  }

  /** One trailing newline is tolerated by the end anchor. */
  lemma TrailingNewlineAccepted()
    ensures ValidateDoi("10.1038/abc\n")
  {
    assert ShapedAt("10.1038/abc", 4);
    assert "10.1038/abc\n"[..11] == "10.1038/abc";
  }

  /** Two trailing newlines are rejected. */
  lemma TwoNewlinesRejected()
    ensures !ValidateDoi("10.1038/abc\n\n")
  {
    var s := "10.1038/abc\n\n";
    var t := "10.1038/abc\n";
    forall k | 4 <= k <= 9 ensures !ShapedAt(s, k) && !ShapedAt(t, k) {
      assert !IsSuffixChar(s[12]) && !IsSuffixChar(t[11]);
    }
    assert s[..12] == t;
  }

  /** The start anchor rejects a leading space. */
  lemma LeadingSpaceRejected()
    ensures !ValidateDoi(" 10.1038/abc")
  {
    var s := " 10.1038/abc";
    assert s[..3][0] == ' ';
    assert s[..3] != "10.";
    assert s[..|s| - 1][..3][0] == ' ';
  }

  /** Three registrant digits are too few. */
  lemma ThreeDigitsRejected()
    ensures !ValidateDoi("10.123/abc")
  {
  }

  /** Ten registrant digits are too many; nine are accepted. */
  lemma RegistrantLengthBounds()
    ensures !ValidateDoi("10.1234567890/abc")
    ensures ValidateDoi("10.123456789/abc")
  {
    var s := "10.1234567890/abc";
    forall k | 4 <= k <= 9 ensures !ShapedAt(s, k) {
      assert IsDigit(s[3 + k]);
    }
    assert !FullMatch(s);
    assert ShapedAt("10.123456789/abc", 9);
  }
}

=== FILE: export.dfy ===
/**
 * `export_history` (search_doi.py:233-276): the rows written for the
 * session history. The CSV encoding itself is not modelled; a row keeps
 * its cells as values.
 */
module Export {
  import opened Base
  import opened Strings
  import opened Medline
  import opened Searcher

  /** One data row: DOI, first author, corresponding author, lookup time, paper count, recent papers. */
  datatype Row = Row(
    doi: string,
    firstAuthor: Option<string>,
    correspondingAuthor: Option<string>,
    timestamp: real,
    paperCount: int,
    recentPapers: string)

  /**
   * What an export does: nothing for an empty history; otherwise the file
   * name and the data rows written after the header, either all of them or,
   * when a row raised, those written before it.
   */
  datatype ExportResult =
    | NothingToExport
    | Exported(file: string, rows: seq<Row>)
    | ExportFailed(file: string, rowsWritten: seq<Row>)

  /** How a year is printed in a label: the year itself, or `None` when it is missing. */
  function YearText(year: Option<string>): string {
    year.GetOr("None")
  }

  /** A paper's label in the preview: its title, then its year in parentheses after a space. */
  function PaperLabel(p: Paper): (text: string)
    ensures |text| == |p.title| + |YearText(p.year)| + 3
    ensures text[..|p.title|] == p.title
    ensures text[|p.title|..|p.title| + 2] == " ("
    ensures text[|p.title| + 2..|text| - 1] == YearText(p.year)
    ensures text[|text| - 1] == ')'
  {
    p.title + " (" + p.year.GetOr("None") + ")"
  }

  function Labels(papers: seq<Paper>): (labels: seq<string>)
    ensures |labels| == |papers|
  {
    if papers == [] then [] else [PaperLabel(papers[0])] + Labels(papers[1..])
  }

  /** The preview cell: the labels of at most the first three papers, joined by "; ". */
  function RecentPapers(papers: seq<Paper>): (preview: string)
    ensures preview == "" <==> papers == []
  {
    var labels := Labels(papers[..Min(3, |papers|)]);
    JoinStartsWithFirst(labels, "; ");
    assert labels != [] ==> |labels[0]| > 0;
    Join(labels, "; ")
  }

  /** The preview is the first paper's label, followed by "; " and the preview of the next one or two papers when there are any. */
  lemma RecentPapersJoin(papers: seq<Paper>)
    ensures |papers| == 1 ==> RecentPapers(papers) == PaperLabel(papers[0])
    ensures |papers| >= 2 ==>
      RecentPapers(papers) == PaperLabel(papers[0]) + "; " + RecentPapers(papers[1..Min(3, |papers|)])
  {
    if papers != [] {
      var shown := papers[..Min(3, |papers|)];
      var labels := Labels(shown);
      assert labels[0] == PaperLabel(papers[0]);
      if |papers| >= 2 {
        var more := papers[1..Min(3, |papers|)];
        assert more[..Min(3, |more|)] == more == shown[1..];
        assert labels[1..] == Labels(more);
      }
    }
  }

  /** A join of at least one part starts with the first part; a join of no parts is empty. */
  lemma JoinStartsWithFirst(parts: seq<string>, sep: string)
    ensures parts == [] ==> Join(parts, sep) == ""
    ensures parts != [] ==> |parts[0]| <= |Join(parts, sep)| && Join(parts, sep)[..|parts[0]|] == parts[0]
  {
    if |parts| > 1 {
      assert Join(parts, sep) == parts[0] + (sep + Join(parts[1..], sep));
    }
  }

  /** The row for a history entry whose profile is present. */
  function RowFor(e: HistoryEntry): Row
    requires e.research.Some?
  {
    Row(e.doi, e.firstAuthor, e.correspondingAuthor, e.timestamp,
        e.research.value.total, RecentPapers(e.research.value.papers))
  }

  /** Rows written, and whether the loop reached the end. */
  datatype Written = Written(rows: seq<Row>, complete: bool)

  /**
   * The row loop for a row function `row` defined on entries with a
   * profile: the rows of the entries before the first one without a
   * profile, and whether the loop got to the end.
   */
  function RowsBeforeMissing(row: HistoryEntry --> Row, history: seq<HistoryEntry>): (w: Written)
    requires forall e: HistoryEntry :: e.research.Some? ==> row.requires(e)
    ensures w.complete <==> forall i :: 0 <= i < |history| ==> history[i].research.Some?
    ensures |w.rows| <= |history|
    ensures w.complete ==> |w.rows| == |history|
    ensures !w.complete ==> |w.rows| < |history| && history[|w.rows|].research.None?
    ensures forall i :: 0 <= i < |w.rows| ==> history[i].research.Some? && w.rows[i] == row(history[i])
  {
    if history == [] then Written([], true)
    else if history[0].research.None? then Written([], false)
    else
      var rest := RowsBeforeMissing(row, history[1..]);
      Written([row(history[0])] + rest.rows, rest.complete)
  }

  /** An entry appended to a history the loop gets through adds its row, if it has a profile, at the end. */
  lemma {:induction false} RowsBeforeMissingAppend(row: HistoryEntry --> Row, history: seq<HistoryEntry>, e: HistoryEntry)
    requires forall e: HistoryEntry :: e.research.Some? ==> row.requires(e)
    requires RowsBeforeMissing(row, history).complete
    ensures RowsBeforeMissing(row, history + [e]).rows ==
      RowsBeforeMissing(row, history).rows + (if e.research.Some? then [row(e)] else [])
    ensures RowsBeforeMissing(row, history + [e]).complete <==> e.research.Some?
    decreases |history|
  {
    if history == [] {
      assert history + [e] == [e];
    } else {
      var h := history + [e];
      assert h[0] == history[0] && history[0].research.Some?;
      assert h[1..] == history[1..] + [e];
      RowsBeforeMissingAppend(row, history[1..], e);
      var tail := if e.research.Some? then [row(e)] else [];
      calc {
        RowsBeforeMissing(row, h).rows;
        [row(history[0])] + RowsBeforeMissing(row, history[1..] + [e]).rows;
        [row(history[0])] + (RowsBeforeMissing(row, history[1..]).rows + tail);
        ([row(history[0])] + RowsBeforeMissing(row, history[1..]).rows) + tail;
        RowsBeforeMissing(row, history).rows + tail;
      }
    }
  }

  /**
   * The row loop. An entry whose `research_info` is `None` makes
   * `.get('papers')` raise, which ends the loop after the rows before it.
   */
  function WriteRows(history: seq<HistoryEntry>): (w: Written)
    ensures w.complete <==> forall i :: 0 <= i < |history| ==> history[i].research.Some?
    ensures |w.rows| <= |history|
    ensures w.complete ==> |w.rows| == |history|
    ensures !w.complete ==> |w.rows| < |history| && history[|w.rows|].research.None?
    ensures forall i :: 0 <= i < |w.rows| ==> history[i].research.Some? && w.rows[i] == RowFor(history[i])
  {
    RowsBeforeMissing(RowFor, history)
  }

  /** `export_history(filename)`; `stamp` stands for the formatted current time used in the default name. */
  function ExportHistory(history: seq<HistoryEntry>, filename: Option<string>, stamp: string): (r: ExportResult)
    ensures r.NothingToExport? <==> history == []
    ensures r.Exported? <==> history != [] && forall i :: 0 <= i < |history| ==> history[i].research.Some?
    ensures r.Exported? ==> |r.rows| == |history|
    ensures r.Exported? ==> forall i :: 0 <= i < |history| ==>
      && r.rows[i].doi == history[i].doi
      && r.rows[i].firstAuthor == history[i].firstAuthor
      && r.rows[i].correspondingAuthor == history[i].correspondingAuthor
      && r.rows[i].timestamp == history[i].timestamp
      && r.rows[i].paperCount == history[i].research.value.total
      && r.rows[i].recentPapers == RecentPapers(history[i].research.value.papers)
    ensures r.ExportFailed? ==> |r.rowsWritten| < |history| && history[|r.rowsWritten|].research.None?
    ensures r.ExportFailed? ==> forall i :: 0 <= i < |r.rowsWritten| ==>
      history[i].research.Some? && r.rowsWritten[i] == RowFor(history[i])
    ensures !r.NothingToExport? && filename.Some? && filename.value != "" ==> r.file == filename.value
    ensures !r.NothingToExport? && (filename.None? || filename.value == "") ==>
      r.file == "search_history_" + stamp + ".csv"
  {
    if history == [] then NothingToExport
    else
      var file := if filename.None? || filename.value == "" then "search_history_" + stamp + ".csv" else filename.value;
      var w := WriteRows(history);
      if w.complete then Exported(file, w.rows) else ExportFailed(file, w.rows)
  }

  /** Rows follow history order: an entry appended to a fully exportable history adds its row at the end. */
  lemma WriteRowsAppend(history: seq<HistoryEntry>, e: HistoryEntry)
    requires WriteRows(history).complete
    ensures WriteRows(history + [e]).rows ==
      WriteRows(history).rows + (if e.research.Some? then [RowFor(e)] else [])
    ensures WriteRows(history + [e]).complete <==> e.research.Some?
  {
    RowsBeforeMissingAppend(RowFor, history, e);
  }

  /** Exporting twice, to any two file names, writes the same rows when nothing was looked up in between. */
  lemma ExportRowsIgnoreFileName(history: seq<HistoryEntry>, f1: Option<string>, s1: string, f2: Option<string>, s2: string)
    requires history != []
    ensures var r1, r2 := ExportHistory(history, f1, s1), ExportHistory(history, f2, s2);
      && r1.Exported? == r2.Exported?
      && (r1.Exported? ==> r1.rows == r2.rows)
      && (r1.ExportFailed? ==> r1.rowsWritten == r2.rowsWritten)
  {
  }

  /** The preview begins with the first paper's label, hence its title, and ignores every paper after the third. */
  lemma RecentPapersShape(papers: seq<Paper>, more: seq<Paper>)
    requires papers != []
    ensures StartsWith(RecentPapers(papers), PaperLabel(papers[0]))
    ensures StartsWith(RecentPapers(papers), papers[0].title)
    ensures |papers| >= 3 ==> RecentPapers(papers + more) == RecentPapers(papers)
  {
    var first, preview := PaperLabel(papers[0]), RecentPapers(papers);
    var labels := Labels(papers[..Min(3, |papers|)]);
    JoinStartsWithFirst(labels, "; ");
    assert labels[0] == first;
    assert preview[..|papers[0].title|] == first[..|papers[0].title|];
    if |papers| >= 3 {
      assert (papers + more)[..3] == papers[..3];
    }
  }

  /**
   * A lookup whose corresponding author name comes out empty or absent is
   * recorded with no profile, and from then on every export of the session
   * fails after the rows of the entries before it.
   */
  lemma ProfilelessEntryBreaksExport(history: seq<HistoryEntry>, e: HistoryEntry, later: seq<HistoryEntry>, f: Option<string>, stamp: string)
    requires WriteRows(history).complete
    requires e.research.None?
    ensures ExportHistory(history + [e] + later, f, stamp).ExportFailed?
    ensures ExportHistory(history + [e] + later, f, stamp).rowsWritten == WriteRows(history).rows
  {
    var h := history + [e] + later;
    var w := WriteRows(h);
    var n := |WriteRows(history).rows|;
    assert n == |history|;
    assert h[|history|] == e;
    assert !w.complete;
    forall i | 0 <= i < |history| ensures h[i].research.Some? {
      assert h[i] == history[i];
    }
    assert |w.rows| == |history|;
    forall i | 0 <= i < |history| ensures w.rows[i] == WriteRows(history).rows[i] {
      assert h[i] == history[i];
    }
  }

  /**
   * In particular a paper whose `author` list is empty is recorded with no
   * corresponding author and no profile, after which the session's export
   * fails.
   */
  lemma EmptyAuthorListBreaksExport(cfg: Cache.Config, s: Session, doi: string, replies: Replies, f: Option<string>, stamp: string)
    requires PaperAuthors(GetPaperInfo(cfg, s, doi, replies.works).result) == Some([])
    requires WriteRows(s.history).complete
    ensures var s' := FindAuthors(cfg, s, doi, replies).after;
      && s'.history[|s.history|].correspondingAuthor == None
      && ExportHistory(s'.history, f, stamp).ExportFailed?
      && ExportHistory(s'.history, f, stamp).rowsWritten == WriteRows(s.history).rows
  {
    EmptyAuthorListRecorded(cfg, s, doi, replies);
    AppendedProfilelessBreaksExport(s.history, FindAuthors(cfg, s, doi, replies).after.history, f, stamp);
  }

  /** A history that extends an exportable one by a single profile-less entry fails to export after the old rows. */
  lemma AppendedProfilelessBreaksExport(before: seq<HistoryEntry>, h: seq<HistoryEntry>, f: Option<string>, stamp: string)
    requires WriteRows(before).complete
    requires |h| == |before| + 1 && h[..|before|] == before && h[|before|].research == None
    ensures ExportHistory(h, f, stamp).ExportFailed?
    ensures ExportHistory(h, f, stamp).rowsWritten == WriteRows(before).rows
  {
    var e := h[|before|];
    assert h == before + [e] + [];
    ProfilelessEntryBreaksExport(before, e, [], f, stamp);
  }

  /**
   * The row the empty-profile defaults of the row loop evidently aim at: an
   * entry without a profile counts 0 papers and has an empty preview.
   */
  function IntendedRowFor(e: HistoryEntry): (row: Row)
    ensures e.research.Some? ==> row == RowFor(e)
    ensures e.research.None? ==> row.paperCount == 0 && row.recentPapers == ""
    ensures row.doi == e.doi && row.timestamp == e.timestamp
    ensures row.firstAuthor == e.firstAuthor && row.correspondingAuthor == e.correspondingAuthor
  {
    match e.research
    case Some(_) => RowFor(e)
    case None => Row(e.doi, e.firstAuthor, e.correspondingAuthor, e.timestamp, 0, "")
  }

  /** The intended row loop: one row per history entry, never stopping early. */
  function IntendedRows(history: seq<HistoryEntry>): (rows: seq<Row>)
    ensures |rows| == |history|
    ensures forall i :: 0 <= i < |history| ==> rows[i] == IntendedRowFor(history[i])
  {
    if history == [] then [] else [IntendedRowFor(history[0])] + IntendedRows(history[1..])
  }

  /**
   * The intended loop agrees with the loop as written up to the first entry
   * without a profile, and the loop as written stops exactly there.
   */
  lemma IntendedRowsExtendWritten(history: seq<HistoryEntry>)
    ensures var w := WriteRows(history);
      && w.rows == IntendedRows(history)[..|w.rows|]
      && (w.complete <==> w.rows == IntendedRows(history))
  {
    var w, rows := WriteRows(history), IntendedRows(history);
    assert w.rows == rows[..|w.rows|];
    if !w.complete {
      assert |w.rows| < |rows|;
    }
  }
}

=== FILE: medline.dfy ===
/**
 * The MEDLINE text parser inside `get_author_research`
 * (search_doi.py:154-176): the fetched text is split into records on blank
 * lines, each record into lines, and the `TI`, `TA` and `DP` tags are read
 * with the last occurrence of each tag winning.
 */
module Medline {
  import opened Base
  import opened Strings

  /** One entry of a research profile's `papers` list. */
  datatype Paper = Paper(title: string, journal: Option<string>, year: Option<string>)

  /** The dict `get_author_research` returns: `{'papers': ..., 'total': ...}`. */
  datatype Profile = Profile(papers: seq<Paper>, total: int)

  /** The profile every failure returns: no papers and a total of 0. */
  const EmptyProfile: Profile := Profile([], 0)

  /** The three tags the parser reads. */
  datatype Tag = Title | Journal | Date

  /** The line prefix that introduces a tag. */
  function Prefix(t: Tag): string {
    match t
    case Title => "TI  -"
    case Journal => "TA  -"
    case Date => "DP  -"
  }

  /**
   * The value of a tagged line: the text after the six-character tag field,
   * stripped of surrounding whitespace; for the date only its first four
   * characters, the year, are kept.
   */
  function TagValue(t: Tag, line: string): (v: string)
    ensures t != Date ==> IsStripOf(Drop(line, 6), v)
    ensures t == Date ==> |v| <= 4
    ensures t == Date ==> var w := Strip(Drop(line, 6));
      |v| == Min(4, |w|) && v == w[..|v|]
  {
    var v := Strip(Drop(line, 6));
    if t == Date then Take(v, 4) else v
  }

  /** The `title`, `journal` and `year` locals of one record. */
  datatype Fields = Fields(title: Option<string>, journal: Option<string>, year: Option<string>)

  const NoFields: Fields := Fields(None, None, None)

  function Get(f: Fields, t: Tag): Option<string> {
    match t
    case Title => f.title
    case Journal => f.journal
    case Date => f.year
  }

  /** One iteration of the line loop: the `if`/`elif` chain on the three prefixes. */
  function StepLine(f: Fields, line: string): Fields {
    if StartsWith(line, Prefix(Title)) then f.(title := Some(TagValue(Title, line)))
    else if StartsWith(line, Prefix(Journal)) then f.(journal := Some(TagValue(Journal, line)))
    else if StartsWith(line, Prefix(Date)) then f.(year := Some(TagValue(Date, line)))
    else f
  }

  /** The line loop, front to back. */
  function ScanLines(lines: seq<string>, f: Fields): Fields
    decreases |lines|
  {
    if lines == [] then f else ScanLines(lines[1..], StepLine(f, lines[0]))
  }

  /** Line `i` is the last line carrying tag `t`. */
  ghost predicate IsLastTagged(lines: seq<string>, t: Tag, i: int) {
    && 0 <= i < |lines|
    && StartsWith(lines[i], Prefix(t))
    && forall j :: i < j < |lines| ==> !StartsWith(lines[j], Prefix(t))
  }

  /** No line carries tag `t`. */
  ghost predicate Untagged(lines: seq<string>, t: Tag) {
    forall j :: 0 <= j < |lines| ==> !StartsWith(lines[j], Prefix(t))
  }

  /** A line starts with at most one of the three prefixes, so each step touches exactly the field of its tag. */
  lemma StepLineField(f: Fields, line: string, t: Tag)
    ensures Get(StepLine(f, line), t) == if StartsWith(line, Prefix(t)) then Some(TagValue(t, line)) else Get(f, t)
  {
    if StartsWith(line, Prefix(Title)) {
      assert line[1] == 'I';
    } else if StartsWith(line, Prefix(Journal)) {
      assert line[..5] == "TA  -";
      assert line[1] == 'A' && line[0] == 'T';
    } else if StartsWith(line, Prefix(Date)) {
      assert line[0] == 'D';
    }
  }

  /** The loop keeps, for every tag, the value of the last line carrying it, and leaves untouched a tag no line carries. */
  lemma {:induction false} ScanLinesLastWins(lines: seq<string>, f: Fields, t: Tag)
    ensures Untagged(lines, t) ==> Get(ScanLines(lines, f), t) == Get(f, t)
    ensures forall i :: IsLastTagged(lines, t, i) ==> Get(ScanLines(lines, f), t) == Some(TagValue(t, lines[i]))
    decreases |lines|
  {
    if lines != [] {
      var f' := StepLine(f, lines[0]);
      StepLineField(f, lines[0], t);
      ScanLinesLastWins(lines[1..], f', t);
      assert Untagged(lines, t) ==> Untagged(lines[1..], t) by {
        if Untagged(lines, t) {
          forall j | 0 <= j < |lines[1..]| ensures !StartsWith(lines[1..][j], Prefix(t)) {
            assert lines[1..][j] == lines[j + 1];
          }
        }
      }
      forall i | IsLastTagged(lines, t, i)
        ensures Get(ScanLines(lines, f), t) == Some(TagValue(t, lines[i]))
      {
        if i == 0 {
          assert Untagged(lines[1..], t) by {
            forall j | 0 <= j < |lines[1..]| ensures !StartsWith(lines[1..][j], Prefix(t)) {
              assert lines[1..][j] == lines[j + 1];
            }
          }
        } else {
          assert IsLastTagged(lines[1..], t, i - 1) by {
            forall j | i - 1 < j < |lines[1..]| ensures !StartsWith(lines[1..][j], Prefix(t)) {
              assert lines[1..][j] == lines[j + 1];
            }
          }
        }
      }
    }
  }

  /** The fields of one record, from its lines. */
  function BlockFields(block: string): Fields {
    ScanLines(Split(block, "\n"), NoFields)
  }

  /** One record: kept only when it has a non-empty title. */
  function ParseBlock(block: string): (r: Option<Paper>)
    ensures r.Some? ==> r.value.title != ""
    ensures r.Some? ==> r.value.year.Some? ==> |r.value.year.value| <= 4
  {
    var f := BlockFields(block);
    if f.title.Some? && f.title.value != "" then
      assert f.year.Some? ==> |f.year.value| <= 4 by {
        var lines := Split(block, "\n");
        if f.year.Some? {
          ScanLinesLastWins(lines, NoFields, Date);
          var i := LastTaggedIndex(lines, Date);
        }
      }
      Some(Paper(f.title.value, f.journal, f.year))
    else None
  }

  /** The index of the last line carrying tag `t`, when some line does. */
  function LastTaggedIndex(lines: seq<string>, t: Tag): (i: int)
    ensures -1 <= i < |lines|
    ensures i == -1 ==> Untagged(lines, t)
    ensures i >= 0 ==> IsLastTagged(lines, t, i)
    decreases |lines|
  {
    if lines == [] then -1
    else if StartsWith(lines[|lines| - 1], Prefix(t)) then |lines| - 1
    else LastTaggedIndex(lines[..|lines| - 1], t)
  }

  /** A record's title, journal and year are those of its last `TI`, `TA` and `DP` lines. */
  lemma ParseBlockReadsLastTags(block: string)
    ensures var lines := Split(block, "\n");
      forall t: Tag ::
        Get(BlockFields(block), t) ==
          var i := LastTaggedIndex(lines, t);
          if i < 0 then None else Some(TagValue(t, lines[i]))
  {
    var lines := Split(block, "\n");
    forall t: Tag
      ensures Get(BlockFields(block), t) ==
        var i := LastTaggedIndex(lines, t);
        if i < 0 then None else Some(TagValue(t, lines[i]))
    {
      ScanLinesLastWins(lines, NoFields, t);
    }
  }

  /** A record is kept exactly when its last `TI` line has a non-empty value, which becomes the title. */
  lemma ParseBlockKeepsTitled(block: string)
    ensures var lines := Split(block, "\n");
      var i := LastTaggedIndex(lines, Title);
      && (ParseBlock(block).Some? <==> i >= 0 && TagValue(Title, lines[i]) != "")
      && (ParseBlock(block).Some? ==> ParseBlock(block).value.title == TagValue(Title, lines[i]))
  {
    ScanLinesLastWins(Split(block, "\n"), NoFields, Title);
  }

  /** The value of the last line of `lines` carrying tag `t`, if any. */
  function LastValue(lines: seq<string>, t: Tag): Option<string> {
    var i := LastTaggedIndex(lines, t);
    if i < 0 then None else Some(TagValue(t, lines[i]))
  }

  /** A kept paper's journal and year are the values of the record's last `TA` and `DP` lines, or absent. */
  lemma ParseBlockPaper(block: string)
    ensures var lines := Split(block, "\n");
      ParseBlock(block).Some? ==>
        && ParseBlock(block).value.journal == LastValue(lines, Journal)
        && ParseBlock(block).value.year == LastValue(lines, Date)
  {
    var lines := Split(block, "\n");
    ScanLinesLastWins(lines, NoFields, Journal);
    ScanLinesLastWins(lines, NoFields, Date);
  }

  /** A record without a `TI` line contributes nothing. */
  lemma UntitledBlockDropped(block: string)
    requires Untagged(Split(block, "\n"), Title)
    ensures ParseBlock(block) == None
  {
    ScanLinesLastWins(Split(block, "\n"), NoFields, Title);
  }

  /** Number of records that are not blank. */
  function NonBlankCount(blocks: seq<string>): nat {
    if blocks == [] then 0 else (if IsBlank(blocks[0]) then 0 else 1) + NonBlankCount(blocks[1..])
  }

  /** Every paper has a non-empty title and a year of at most four characters. */
  ghost predicate WellFormed(papers: seq<Paper>) {
    forall k :: 0 <= k < |papers| ==>
      papers[k].title != "" && (papers[k].year.Some? ==> |papers[k].year.value| <= 4)
  }

  /** What one record adds to the paper list: nothing when it is blank or untitled. */
  function Contribution(block: string): seq<Paper> {
    if IsBlank(block) then []
    else match ParseBlock(block)
      case Some(p) => [p]
      case None => []
  }

  /** A non-empty contribution is the record's parse. */
  lemma ContributionIsParse(block: string)
    ensures Contribution(block) != [] ==> ParseBlock(block) == Some(Contribution(block)[0])
  {
  }

  /** The record loop: blank records are skipped, each other record adds its paper, if any, in order. */
  function ParseBlocks(blocks: seq<string>): seq<Paper> {
    FlatMap(Contribution, blocks)
  }

  /** At most one paper per non-blank record, each with a title and a short year. */
  lemma {:induction false} ParseBlocksWellFormed(blocks: seq<string>)
    ensures |ParseBlocks(blocks)| <= NonBlankCount(blocks)
    ensures WellFormed(ParseBlocks(blocks))
    decreases |blocks|
  {
    if blocks != [] {
      ParseBlocksWellFormed(blocks[1..]);
      var here, rest := Contribution(blocks[0]), ParseBlocks(blocks[1..]);
      var all: seq<Paper> := here + rest;
      assert ParseBlocks(blocks) == all;
      forall k | 0 <= k < |all|
        ensures all[k].title != ""
        ensures all[k].year.Some? ==> |all[k].year.value| <= 4
      {
        if k >= |here| {
          assert all[k] == rest[k - |here|];
        }
      }
    }
  }

  /** The papers found in a fetched MEDLINE text. */
  function ParseMedline(text: string): (papers: seq<Paper>)
    ensures |papers| <= NonBlankCount(Split(text, "\n\n"))
    ensures WellFormed(papers)
  {
    ParseBlocksWellFormed(Split(text, "\n\n"));
    ParseBlocks(Split(text, "\n\n"))
  }

  /** A fetched text without a blank-line separator is one record. */
  lemma ParseMedlineOneRecord(text: string)
    requires !Contains(text, "\n\n")
    ensures ParseMedline(text) == if !IsBlank(text) && ParseBlock(text).Some? then [ParseBlock(text).value] else []
  {
    SplitAfterFirstCut(text, "\n\n");
    JoinSplit(text, "\n\n");
    assert Split(text, "\n\n") == [text];
    ParseBlocksSingle(text);
  }

  /** A single record yields its paper exactly when it is not blank and has a title. */
  lemma ParseBlocksSingle(block: string)
    ensures ParseBlocks([block]) ==
      if !IsBlank(block) && ParseBlock(block).Some? then [ParseBlock(block).value] else []
  {
    assert [block][1..] == [];
    assert ParseBlocks([block]) == Contribution(block) + FlatMap(Contribution, []);
  }

  /** Parsing distributes over concatenation of record lists: the output keeps the records' order. */
  lemma ParseBlocksAppend(a: seq<string>, b: seq<string>)
    ensures ParseBlocks(a + b) == ParseBlocks(a) + ParseBlocks(b)
  {
    FlatMapAppend(Contribution, a, b);
  }

  /** Each kept paper comes from one record, at a position no earlier than its rank among the papers. */
  lemma ParseBlocksSources(blocks: seq<string>)
    ensures forall k :: 0 <= k < |ParseBlocks(blocks)| ==>
      exists j :: k <= j < |blocks| && ParseBlock(blocks[j]) == Some(ParseBlocks(blocks)[k])
  {
    FlatMapSources(Contribution, blocks);
    var papers := ParseBlocks(blocks);
    forall k | 0 <= k < |papers|
      ensures exists j :: k <= j < |blocks| && ParseBlock(blocks[j]) == Some(papers[k])
    {
      var j :| k <= j < |blocks| && Contribution(blocks[j]) == [papers[k]];
      ContributionIsParse(blocks[j]);
      assert ParseBlock(blocks[j]) == Some(papers[k]);
    }
  }
}

=== FILE: rate_limit.dfy ===
/**
 * Request pacing, `_wait_between_requests` (search_doi.py:89-94), as a
 * state machine over an explicit clock: `time.time()` reads `now`, and
 * `time.sleep(d)` advances `now` by exactly `d`.
 */
module RateLimit {

  /** `self.min_delay`, in seconds. */
  const MinDelay: real := 1.0

  /** The wall clock and `self.last_request_time`. */
  datatype Clock = Clock(now: real, lastRequest: real)

  /** The searcher's starting state: `last_request_time = 0`. */
  function Start(now: real): (c: Clock)
    requires now >= 0.0
    ensures c.lastRequest <= c.now
  {
    Clock(now, 0.0)
  }

  /** How long `_wait_between_requests` sleeps: what is missing of `MinDelay` since the last request, or nothing. */
  function SleepFor(c: Clock): (d: real)
    ensures d >= 0.0
    ensures d >= MinDelay - (c.now - c.lastRequest)
    ensures d == 0.0 || d == MinDelay - (c.now - c.lastRequest)
  {
    var elapsed := c.now - c.lastRequest;
    if elapsed < MinDelay then MinDelay - elapsed else 0.0
  }

  /**
   * `_wait_between_requests`: sleep if needed, then record the release time
   * (not the call time) as the last request time.
   */
  function Throttle(c: Clock): (c': Clock)
    ensures c'.now == c.now + SleepFor(c)
    ensures c'.lastRequest == c'.now
    ensures c'.lastRequest >= c.lastRequest + MinDelay
    ensures c'.now > c.now ==> c'.now == c.lastRequest + MinDelay
  {
    var released := c.now + SleepFor(c);
    Clock(released, released)
  }

  /** Time passing outside the limiter. */
  function Elapse(c: Clock, dt: real): (c': Clock)
    requires dt >= 0.0
    ensures c'.now >= c.now && c'.lastRequest == c.lastRequest
  {
    Clock(c.now + dt, c.lastRequest)
  }

  /** Two throttled releases, with any amount of time passing between them, are at least `MinDelay` apart. */
  lemma ConsecutiveReleasesSpaced(c: Clock, dt: real)
    requires dt >= 0.0
    ensures Throttle(Elapse(Throttle(c), dt)).now >= Throttle(c).now + MinDelay
  {
  }

  /** Once `MinDelay` has passed since the last request, throttling does not wait at all. */
  lemma NoWaitWhenIdle(c: Clock)
    requires c.now - c.lastRequest >= MinDelay
    ensures Throttle(c) == Clock(c.now, c.now)
  {
  }
}

=== FILE: searcher.dfy ===
/**
 * The `DOISearcher` operations that talk to the providers: `get_paper_info`
 * (search_doi.py:96-125), `get_author_research` (search_doi.py:127-187)
 * and `find_authors` (search_doi.py:189-231).
 *
 * The searcher's mutable state is a `Session` value threaded through every
 * operation. Provider answers are inputs, and every outbound provider call
 * is recorded, with the time it was released, in `Session.sent`.
 */
module Searcher {
  import opened Base
  import opened Strings
  import opened Doi
  import opened Works
  import opened Cache
  import opened RateLimit
  import opened Medline

  /** The provider calls the searcher makes. */
  datatype Call =
    | WorksLookup(doi: string)              // Crossref `works(ids=doi)`
    | AuthorSearch(term: string, retmax: int) // Entrez `esearch` on PubMed, newest first
    | RecordFetch(ids: string)              // Entrez `efetch` of MEDLINE text for comma-joined ids

  /** One outbound call and the clock time at which the limiter released it. */
  datatype Request = Request(at: real, call: Call)

  /** One element of `search_history`. */
  datatype HistoryEntry = HistoryEntry(
    doi: string,
    firstAuthor: Option<string>,
    correspondingAuthor: Option<string>,
    timestamp: real,
    research: Option<Profile>)

  /** The searcher's state: pacing clock, cache directory contents, history, and the calls sent so far. */
  datatype Session = Session(clock: Clock, files: Files, history: seq<HistoryEntry>, sent: seq<Request>)

  /** Crossref's answer: a transport error, a response without `message`, or the message. */
  datatype WorksReply = WorksError | NoMessage | WorksFound(message: Message)

  /**
   * PubMed search answer: a transport or format error, or the id list and
   * the `Count` field (`None` when `int()` would reject it).
   */
  datatype SearchReply = SearchError | SearchFound(idList: seq<string>, count: Option<int>)

  /** PubMed fetch answer: a transport error or the MEDLINE text. */
  datatype FetchReply = FetchError | FetchText(text: string)

  /** The answers the providers give during one `find_authors` call. */
  datatype Replies = Replies(works: WorksReply, search: SearchReply, fetch: FetchReply)

  /** An operation's result together with the session after it. */
  datatype Step<T> = Step(result: T, after: Session)

  /** `find_authors`' triple. */
  datatype Lookup = Lookup(firstAuthor: Option<string>, correspondingAuthor: Option<string>, research: Option<Profile>)

  const NotFound: Lookup := Lookup(None, None, None)

  /** `get_author_research`'s default `max_results`. */
  const MaxResults: int := 10

  /**
   * A new searcher over an existing cache directory: last request time 0,
   * empty history, nothing sent. Since the clock is seconds since the
   * epoch, its first request is not delayed.
   */
  function NewSession(now: real, files: Files): (s: Session)
    requires now >= 0.0
    ensures Paced(s)
    ensures s.history == [] && s.sent == [] && s.files == files && s.clock.now == now
    ensures s.clock.lastRequest == 0.0
    ensures now >= MinDelay ==> Throttle(s.clock).now == now
  {
    Session(Start(now), files, [], [])
  }

  /** Each call was released at least `MinDelay` after the one before it. */
  predicate Spaced(sent: seq<Request>)
    decreases |sent|
  {
    |sent| <= 1 ||
      (Spaced(sent[..|sent| - 1]) && sent[|sent| - 2].at + MinDelay <= sent[|sent| - 1].at)
  }

  /**
   * The pacing invariant: the last request time is not in the future, the
   * latest call sent was released no later than it, and consecutive calls
   * were released at least `MinDelay` apart.
   */
  predicate Paced(s: Session) {
    && s.clock.lastRequest <= s.clock.now
    && (s.sent != [] ==> s.sent[|s.sent| - 1].at <= s.clock.lastRequest)
    && Spaced(s.sent)
  }

  /** Under the invariant any two calls are `MinDelay` apart per call between them. */
  lemma {:induction false} SpacedPairwise(sent: seq<Request>, i: int, j: int)
    requires Spaced(sent)
    requires 0 <= i < j < |sent|
    ensures sent[i].at + (j - i) as real * MinDelay <= sent[j].at
    decreases |sent|
  {
    var prefix := sent[..|sent| - 1];
    assert prefix[i] == sent[i];
    if j < |sent| - 1 {
      SpacedPairwise(prefix, i, j);
      assert prefix[j] == sent[j];
    } else if i < j - 1 {
      SpacedPairwise(prefix, i, j - 1);
      assert prefix[j - 1] == sent[j - 1];
    }
  }

  /** `_wait_between_requests()` followed by the call itself. */
  function Send(s: Session, call: Call): (s': Session)
    ensures |s'.sent| == |s.sent| + 1 && s'.sent[..|s.sent|] == s.sent
    ensures s'.sent[|s.sent|] == Request(s'.clock.now, call)
    ensures s'.clock == Throttle(s.clock)
    ensures s'.files == s.files && s'.history == s.history
    ensures Paced(s) ==> Paced(s')
  {
    var c := Throttle(s.clock);
    var s' := s.(clock := c, sent := s.sent + [Request(c.now, call)]);
    assert s'.sent[..|s.sent|] == s.sent;
    s'
  }

  /** Time passing between operations. */
  function Wait(s: Session, dt: real): (s': Session)
    requires dt >= 0.0
    ensures s'.clock.now == s.clock.now + dt
    ensures s'.files == s.files && s'.history == s.history && s'.sent == s.sent
    ensures Paced(s) ==> Paced(s')
  {
    s.(clock := RateLimit.Elapse(s.clock, dt))
  }

  /** `if cached_data:` holds: the cache returns a message and it is not `{}`. */
  predicate CacheHit(cfg: Config, s: Session, doi: string) {
    var cached := GetFromCache(cfg, s.files, doi, s.clock.now);
    cached.Some? && IsNonEmpty(cached.value)
  }

  /**
   * `get_paper_info`: validate, then read the cache, then throttle and ask
   * Crossref, then save the message to the cache and return it.
   */
  function GetPaperInfo(cfg: Config, s: Session, doi: string, reply: WorksReply): (r: Step<Option<Message>>)
    ensures !ValidateDoi(doi) ==> r == Step(None, s)
    ensures ValidateDoi(doi) && CacheHit(cfg, s, doi) ==>
      r == Step(GetFromCache(cfg, s.files, doi, s.clock.now), s)
    ensures ValidateDoi(doi) && !CacheHit(cfg, s, doi) ==>
      && |r.after.sent| == |s.sent| + 1
      && r.after.sent[..|s.sent|] == s.sent
      && r.after.sent[|s.sent|].call == WorksLookup(doi)
      && r.after.clock == Throttle(s.clock)
      && (reply.WorksFound? ==>
            && r.result == Some(reply.message)
            && r.after.files == SaveToCache(cfg, s.files, doi, reply.message, r.after.clock.now))
      && (!reply.WorksFound? ==> r.result == None && r.after.files == s.files)
    ensures |r.after.sent| >= |s.sent| && r.after.sent[..|s.sent|] == s.sent
    ensures r.after.history == s.history
    ensures Paced(s) ==> Paced(r.after)
  {
    if !ValidateDoi(doi) then Step(None, s)
    else
      var cached := GetFromCache(cfg, s.files, doi, s.clock.now);
      if cached.Some? && IsNonEmpty(cached.value) then Step(cached, s)
      else
        var s1 := Send(s, WorksLookup(doi));
        match reply
        case WorksFound(m) => Step(Some(m), s1.(files := SaveToCache(cfg, s1.files, doi, m, s1.clock.now)))
        case _ => Step(None, s1)
  }

  /**
   * `get_author_research`: one throttled PubMed search; when it finds ids,
   * a second throttled fetch whose MEDLINE text is parsed. Every failure
   * gives the empty profile.
   */
  function GetAuthorResearch(s: Session, name: string, maxResults: int, search: SearchReply, fetch: FetchReply): (r: Step<Profile>)
    ensures r.after.files == s.files && r.after.history == s.history
    ensures |r.after.sent| > |s.sent| && r.after.sent[..|s.sent|] == s.sent
    ensures r.after.sent[|s.sent|] == Request(Throttle(s.clock).now, AuthorSearch(name + "[Author]", maxResults))
    ensures r.after.clock == if search.SearchFound? && search.idList != [] then Throttle(Throttle(s.clock)) else Throttle(s.clock)
    ensures search.SearchError? || (search.SearchFound? && search.idList == []) ==>
      r.result == EmptyProfile && |r.after.sent| == |s.sent| + 1
    ensures search.SearchFound? && search.idList != [] ==>
      && |r.after.sent| == |s.sent| + 2
      && r.after.sent[|s.sent| + 1] == Request(Throttle(Throttle(s.clock)).now, RecordFetch(Join(search.idList, ",")))
    ensures r.result != EmptyProfile ==>
      && search.SearchFound? && search.count.Some? && fetch.FetchText?
      && r.result == Profile(ParseMedline(fetch.text), search.count.value)
    ensures search.SearchFound? && search.idList != [] && search.count.Some? && fetch.FetchText? ==>
      r.result == Profile(ParseMedline(fetch.text), search.count.value)
    ensures WellFormed(r.result.papers)
    ensures Paced(s) ==> Paced(r.after)
  {
    var s1 := Send(s, AuthorSearch(name + "[Author]", maxResults));
    match search
    case SearchError => Step(EmptyProfile, s1)
    case SearchFound(ids, count) =>
      if ids == [] then Step(EmptyProfile, s1)
      else
        var s2 := Send(s1, RecordFetch(Join(ids, ",")));
        PrefixOfPrefix(s.sent, s1.sent, s2.sent);
        match fetch
        case FetchError => Step(EmptyProfile, s2)
        case FetchText(text) =>
          if count.None? then Step(EmptyProfile, s2)
          else Step(Profile(ParseMedline(text), count.value), s2)
  }

  /**
   * The author list `find_authors` works on: absent when the lookup gave
   * nothing, gave `{}`, or gave a message without an `author` key.
   */
  function PaperAuthors(info: Option<Message>): (r: Option<seq<Author>>)
    ensures r.Some? <==> info.Some? && IsNonEmpty(info.value) && info.value.author.Some?
    ensures r.Some? ==> r == info.value.author
  {
    if info.None? || !IsNonEmpty(info.value) || info.value.author.None? then None
    else info.value.author
  }

  /**
   * The profile step of `find_authors`: `get_author_research` for a
   * non-empty corresponding author name, nothing otherwise.
   */
  function ResearchFor(s: Session, corresponding: Option<string>, replies: Replies): (r: Step<Option<Profile>>)
    ensures r.result.Some? <==> corresponding.Some? && corresponding.value != ""
    ensures corresponding.Some? && corresponding.value != "" ==>
      var g := GetAuthorResearch(s, corresponding.value, MaxResults, replies.search, replies.fetch);
      r.result == Some(g.result) && r.after == g.after
    ensures r.result.None? ==> r.after == s
    ensures r.after.files == s.files && r.after.history == s.history
    ensures |r.after.sent| >= |s.sent| && r.after.sent[..|s.sent|] == s.sent
    ensures Paced(s) ==> Paced(r.after)
  {
    if corresponding.Some? && corresponding.value != "" then
      var res := GetAuthorResearch(s, corresponding.value, MaxResults, replies.search, replies.fetch);
      Step(Some(res.result), res.after)
    else Step(None, s)
  }

  /**
   * `find_authors`: look the paper up; without an author list, give up
   * with nothing recorded; otherwise pick the first and corresponding
   * authors, fetch the corresponding author's profile when that name is
   * non-empty, and append one history entry.
   */
  function FindAuthors(cfg: Config, s: Session, doi: string, replies: Replies): (r: Step<Lookup>)
    ensures var info := GetPaperInfo(cfg, s, doi, replies.works);
      PaperAuthors(info.result).None? ==> r == Step(NotFound, info.after)
    ensures var info := GetPaperInfo(cfg, s, doi, replies.works);
      PaperAuthors(info.result).Some? ==>
        var authors := PaperAuthors(info.result).value;
        && r.result.firstAuthor == FirstAuthor(authors)
        && r.result.correspondingAuthor == CorrespondingAuthor(authors)
        && (r.result.research.Some? <==>
              CorrespondingAuthor(authors).Some? && CorrespondingAuthor(authors).value != "")
        && |r.after.history| == |s.history| + 1
        && r.after.history[..|s.history|] == s.history
        && r.after.history[|s.history|] ==
             HistoryEntry(doi, r.result.firstAuthor, r.result.correspondingAuthor,
                          r.after.clock.now, r.result.research)
    ensures r.after.files == GetPaperInfo(cfg, s, doi, replies.works).after.files
    ensures |r.after.sent| >= |s.sent| && r.after.sent[..|s.sent|] == s.sent
    ensures |s.history| <= |r.after.history| <= |s.history| + 1
    ensures r.after.history[..|s.history|] == s.history
    ensures |r.after.history| > |s.history| ==> ValidateDoi(doi) && r.after.history[|s.history|].doi == doi
    ensures Paced(s) ==> Paced(r.after)
  {
    var info := GetPaperInfo(cfg, s, doi, replies.works);
    var s1 := info.after;
    match PaperAuthors(info.result)
    case None => Step(NotFound, s1)
    case Some(authors) =>
      var r := RecordLookup(s1, doi, authors, replies);
      PrefixOfPrefix(s.sent, s1.sent, r.after.sent);
      r
  }

  /**
   * The part of `find_authors` once the author list is known: name the
   * first and corresponding authors, fetch the profile, append the entry.
   */
  function RecordLookup(s: Session, doi: string, authors: seq<Author>, replies: Replies): (r: Step<Lookup>)
    ensures r.result.firstAuthor == FirstAuthor(authors)
    ensures r.result.correspondingAuthor == CorrespondingAuthor(authors)
    ensures r.result.research.Some? <==>
      CorrespondingAuthor(authors).Some? && CorrespondingAuthor(authors).value != ""
    ensures |r.after.history| == |s.history| + 1
    ensures r.after.history[..|s.history|] == s.history
    ensures r.after.history[|s.history|] ==
      HistoryEntry(doi, r.result.firstAuthor, r.result.correspondingAuthor, r.after.clock.now, r.result.research)
    ensures r.after.files == s.files
    ensures |r.after.sent| >= |s.sent| && r.after.sent[..|s.sent|] == s.sent
    ensures r.result.research.None? ==> r.after == s.(history := r.after.history)
    ensures Paced(s) ==> Paced(r.after)
  {
    var first := FirstAuthor(authors);
    var corresponding := CorrespondingAuthor(authors);
    var fetched := ResearchFor(s, corresponding, replies);
    var s2 := fetched.after;
    var entry := HistoryEntry(doi, first, corresponding, s2.clock.now, fetched.result);
    Step(Lookup(first, corresponding, fetched.result), s2.(history := s2.history + [entry]))
  }

  /**
   * With a non-empty corresponding author name, the lookup's profile, its
   * requests and its clock are those of `get_author_research` for that name
   * with ten results.
   */
  lemma RecordLookupProfile(s: Session, doi: string, authors: seq<Author>, replies: Replies)
    ensures var name := CorrespondingAuthor(authors);
      name.Some? && name.value != "" ==>
        var g := GetAuthorResearch(s, name.value, MaxResults, replies.search, replies.fetch);
        var r := RecordLookup(s, doi, authors, replies);
        && r.result.research == Some(g.result)
        && r.after.sent == g.after.sent
        && r.after.clock == g.after.clock
  {
  }

  /**
   * The profile `find_authors` returns and records is the one
   * `get_author_research` fetches for the corresponding author's name with
   * its default of ten results, made after the paper lookup.
   */
  lemma FindAuthorsProfile(cfg: Config, s: Session, doi: string, replies: Replies)
    ensures var info := GetPaperInfo(cfg, s, doi, replies.works);
      var r := FindAuthors(cfg, s, doi, replies);
      PaperAuthors(info.result).Some? && r.result.research.Some? ==>
        var name := CorrespondingAuthor(PaperAuthors(info.result).value);
        && name.Some?
        && r.result.research.value ==
             GetAuthorResearch(info.after, name.value, MaxResults, replies.search, replies.fetch).result
        && r.after.history[|s.history|].research == r.result.research
  {
  }

  /**
   * Without a profile to fetch, `find_authors` makes no request after the
   * paper lookup and the entry is stamped at the time that lookup left.
   */
  lemma FindAuthorsNoProfile(cfg: Config, s: Session, doi: string, replies: Replies)
    ensures var info := GetPaperInfo(cfg, s, doi, replies.works);
      var r := FindAuthors(cfg, s, doi, replies);
      PaperAuthors(info.result).Some? && r.result.research.None? ==>
        && r.after.sent == info.after.sent
        && r.after.clock == info.after.clock
        && r.after.history[|s.history|].timestamp == info.after.clock.now
  {
  }

  /** A paper with an empty author list is recorded with neither a corresponding author nor a profile. */
  lemma EmptyAuthorListRecorded(cfg: Config, s: Session, doi: string, replies: Replies)
    requires PaperAuthors(GetPaperInfo(cfg, s, doi, replies.works).result) == Some([])
    ensures var h := FindAuthors(cfg, s, doi, replies).after.history;
      && |h| == |s.history| + 1
      && h[..|s.history|] == s.history
      && h[|s.history|].correspondingAuthor == None
      && h[|s.history|].research == None
  {
    assert CorrespondingAuthor([]) == None;
  }

  /** An invalid DOI is rejected before any side effect: no request, no cache access, no history entry. */
  lemma InvalidDoiIsInert(cfg: Config, s: Session, doi: string, replies: Replies)
    requires !ValidateDoi(doi)
    ensures FindAuthors(cfg, s, doi, replies) == Step(NotFound, s)
  {
  }

  /**
   * A message fetched from Crossref is cached, so asking again for the same
   * DOI within seven days returns it with no further request.
   */
  lemma FetchedPaperIsCached(cfg: Config, s: Session, doi: string, m: Message, dt: Duration, again: WorksReply)
    requires cfg.useCache && IsNonEmpty(m) && dt <= CacheTtl
    ensures ValidateDoi(doi) && !CacheHit(cfg, s, doi) ==>
      var first := GetPaperInfo(cfg, s, doi, WorksFound(m));
      var later := Wait(first.after, dt);
      GetPaperInfo(cfg, later, doi, again) == Step(Some(m), later)
  {
    if ValidateDoi(doi) && !CacheHit(cfg, s, doi) {
      var first := GetPaperInfo(cfg, s, doi, WorksFound(m));
      var later := Wait(first.after, dt);
      var t := first.after.clock.now;
      assert first.after.files == SaveToCache(cfg, s.files, doi, m, t);
      assert later.files == first.after.files && later.clock.now == t + dt;
      SaveThenGet(cfg, s.files, doi, m, t, t + dt);
      assert GetFromCache(cfg, later.files, doi, later.clock.now) == Some(m);
      assert CacheHit(cfg, later, doi);
    }
  }

  /** Every DOI in the history passed validation. */
  ghost predicate HistoryValidated(s: Session) {
    forall k :: 0 <= k < |s.history| ==> ValidateDoi(s.history[k].doi)
  }

  /** A non-negative length of time, in seconds. */
  type Duration = r: real | r >= 0.0 witness 0.0

  /** One lookup request of an interactive session: time passed before it, the DOI, and the providers' answers. */
  datatype Query = Query(wait: Duration, doi: string, replies: Replies)

  /** The session after one query: the wait, then the lookup. */
  function NextSession(cfg: Config, s: Session, q: Query): Session {
    FindAuthors(cfg, Wait(s, q.wait), q.doi, q.replies).after
  }

  /** Applying a session step to each query in turn. */
  function RunSteps(step: (Session, Query) -> Session, s: Session, queries: seq<Query>): Session
    decreases |queries|
  {
    if queries == [] then s else RunSteps(step, step(s, queries[0]), queries[1..])
  }

  /** The interactive loop's lookups, one after another. */
  function RunQueries(cfg: Config, s: Session, queries: seq<Query>): Session {
    RunSteps((t: Session, q: Query) => NextSession(cfg, t, q), s, queries)
  }

  /** The session invariants a run of lookups keeps. */
  ghost predicate Good(s: Session) {
    Paced(s) && HistoryValidated(s)
  }

  /** `s'` extends `s`: at most `n` more history entries, and earlier entries and requests kept. */
  ghost predicate Extends(s: Session, s': Session, n: nat) {
    && |s.history| <= |s'.history| <= |s.history| + n
    && s'.history[..|s.history|] == s.history
    && |s.sent| <= |s'.sent| && s'.sent[..|s.sent|] == s.sent
  }

  /** One query keeps the session invariants and only appends. */
  lemma LookupStep(cfg: Config, s: Session, q: Query)
    requires Good(s)
    ensures Good(NextSession(cfg, s, q)) && Extends(s, NextSession(cfg, s, q), 1)
  {
    var e := Wait(s, q.wait);
    assert e.history == s.history && e.sent == s.sent && Paced(e);
    var s' := FindAuthors(cfg, e, q.doi, q.replies).after;
    assert s' == NextSession(cfg, s, q);
    assert Paced(s');
    assert Extends(s, s', 1);
    forall k | 0 <= k < |s'.history| ensures ValidateDoi(s'.history[k].doi) {
      if k < |s.history| {
        assert s'.history[k] == s'.history[..|s.history|][k];
      }
    }
  }

  /** A step that keeps the invariants and appends at most one entry does so over any run. */
  lemma {:induction false} RunStepsAppendOnly(step: (Session, Query) -> Session, s: Session, queries: seq<Query>)
    requires Good(s)
    requires forall t: Session, q: Query :: Good(t) ==> Good(step(t, q)) && Extends(t, step(t, q), 1)
    ensures Good(RunSteps(step, s, queries)) && Extends(s, RunSteps(step, s, queries), |queries|)
    decreases |queries|
  {
    if queries != [] {
      var s1 := step(s, queries[0]);
      RunStepsAppendOnly(step, s1, queries[1..]);
      var s' := RunSteps(step, s1, queries[1..]);
      PrefixOfPrefix(s.history, s1.history, s'.history);
      PrefixOfPrefix(s.sent, s1.sent, s'.sent);
    }
  }

  /**
   * Over any run of lookups the history only grows, by at most one entry
   * per lookup, earlier entries and earlier requests stay as they were, only
   * validated DOIs are recorded, and all requests remain at least `MinDelay`
   * apart.
   */
  lemma RunQueriesAppendOnly(cfg: Config, s: Session, queries: seq<Query>)
    requires Paced(s) && HistoryValidated(s)
    ensures var s' := RunQueries(cfg, s, queries);
      && |s.history| <= |s'.history| <= |s.history| + |queries|
      && s'.history[..|s.history|] == s.history
      && |s.sent| <= |s'.sent| && s'.sent[..|s.sent|] == s.sent
      && Paced(s') && HistoryValidated(s')
  {
    var step := (t: Session, q: Query) => NextSession(cfg, t, q);
    forall t: Session, q: Query | Good(t) ensures Good(step(t, q)) && Extends(t, step(t, q), 1) {
      LookupStep(cfg, t, q);
    }
    RunStepsAppendOnly(step, s, queries);
  }

  /**
   * The worked example: a fresh lookup of the help-text DOI whose authors
   * are "A One" (first) and "B Two" (additional, corresponding) yields those
   * two names and records them.
   */
  lemma WorkedExample(s: Session, search: SearchReply, fetch: FetchReply)
    ensures var replies := Replies(WorksFound(Message(Some([ExampleFirst(), ExampleMarked()]), 0)), search, fetch);
      var r := FindAuthors(Config(false, ".cache"), s, "10.1038/s41586-020-2169-0", replies);
      && r.result.firstAuthor == Some("A One")
      && r.result.correspondingAuthor == Some("B Two")
      && r.result.research.Some?
      && r.after.history[|s.history|].correspondingAuthor == Some("B Two")
  {
    WorkedExampleLookup(s);
    MarkedAuthorExample();
  }

  /** With the cache off, the help-text DOI is fetched and its author list used as returned. */
  lemma WorkedExampleLookup(s: Session)
    ensures var m := Message(Some([ExampleFirst(), ExampleMarked()]), 0);
      var info := GetPaperInfo(Config(false, ".cache"), s, "10.1038/s41586-020-2169-0", WorksFound(m));
      PaperAuthors(info.result) == Some([ExampleFirst(), ExampleMarked()])
  {
    HelpExampleAccepted();
    assert !CacheHit(Config(false, ".cache"), s, "10.1038/s41586-020-2169-0");
  }
}

=== FILE: strings.dfy ===
/**
 * The handful of Python `str` operations the searcher relies on, modelled
 * over `seq<char>`: `isspace`, `strip`, `startswith`, slicing with
 * out-of-range bounds, `replace` of one character, `split` on a separator
 * and `join`.
 */
module Strings {

  /** Python's `str.isspace()` for one character (the full Unicode set it accepts). */
  predicate IsSpace(c: char) {
    || c == ' '
    || ('\t' <= c <= '\r')
    || ('\U{1c}' <= c <= '\U{1f}')
    || c == '\U{85}'
    || c == '\U{a0}'
    || c == '\U{1680}'
    || ('\U{2000}' <= c <= '\U{200a}')
    || c == '\U{2028}'
    || c == '\U{2029}'
    || c == '\U{202f}'
    || c == '\U{205f}'
    || c == '\U{3000}'
  }

  /** True of a string that `strip()` empties, i.e. that Python treats as blank. */
  predicate IsBlank(s: string) {
    forall i :: 0 <= i < |s| ==> IsSpace(s[i])
  }

  /** `s.lstrip()`: drops exactly the leading whitespace. */
  function TrimStart(s: string): (r: string)
    ensures |r| <= |s| && r == s[|s| - |r|..]
    ensures forall i :: 0 <= i < |s| - |r| ==> IsSpace(s[i])
    ensures r == "" || !IsSpace(r[0])
    decreases |s|
  {
    if |s| > 0 && IsSpace(s[0]) then TrimStart(s[1..]) else s
  }

  /** `s.rstrip()`: drops exactly the trailing whitespace. */
  function TrimEnd(s: string): (r: string)
    ensures |r| <= |s| && r == s[..|r|]
    ensures forall i :: |r| <= i < |s| ==> IsSpace(s[i])
    ensures r == "" || !IsSpace(r[|r| - 1])
    decreases |s|
  {
    if |s| > 0 && IsSpace(s[|s| - 1]) then TrimEnd(s[..|s| - 1]) else s
  }

  /** `r` is the part of `s` from index `i` on, with a blank part before it and a blank part after it. */
  ghost predicate StrippedAt(s: string, r: string, i: int) {
    && 0 <= i <= |s| - |r|
    && r == s[i..i + |r|]
    && IsBlank(s[..i])
    && IsBlank(s[i + |r|..])
  }

  /**
   * `r` is what is left of `s` between a blank prefix and a blank suffix,
   * and it neither starts nor ends with whitespace.
   */
  ghost predicate IsStripOf(s: string, r: string) {
    && (r == "" || (!IsSpace(r[0]) && !IsSpace(r[|r| - 1])))
    && exists i :: StrippedAt(s, r, i)
  }

  /** `s.strip()`: the text left after removing the leading and the trailing whitespace. */
  function Strip(s: string): (r: string)
    ensures |r| <= |s|
    ensures IsStripOf(s, r)
    ensures r == "" <==> IsBlank(s)
  {
    var t := TrimStart(s);
    var r := TrimEnd(t);
    StripWitness(s, t, r);
    r
  }

  /** A string cut from `s` after a blank run and before a blank run is stripped at that index. */
  lemma StripWitness(s: string, t: string, r: string)
    requires |t| <= |s| && t == s[|s| - |t|..]
    requires forall k :: 0 <= k < |s| - |t| ==> IsSpace(s[k])
    requires |r| <= |t| && r == t[..|r|]
    requires forall k :: |r| <= k < |t| ==> IsSpace(t[k])
    ensures StrippedAt(s, r, |s| - |t|)
  {
    var i := |s| - |t|;
    var head, tail := s[..i], s[i + |r|..];
    forall k | 0 <= k < |head| ensures IsSpace(head[k]) {
      assert head[k] == s[k];
    }
    forall k | 0 <= k < |tail| ensures IsSpace(tail[k]) {
      assert tail[k] == t[|r| + k];
    }
    assert r == s[i..i + |r|];
  }

  /** Stripping twice is stripping once. */
  lemma StripIdempotent(s: string)
    ensures Strip(Strip(s)) == Strip(s)
  {
    var r := Strip(s);
    assert StrippedAt(r, r, 0) by {
      assert r[..0] == [] && r[|r|..] == [];
    }
    StripUnique(r, r);
  }

  /** There is only one way to strip a string: `IsStripOf` pins the result down. */
  lemma StripUnique(s: string, r: string)
    requires IsStripOf(s, r)
    ensures r == Strip(s)
  {
    var r' := Strip(s);
    var i :| StrippedAt(s, r, i);
    var i' :| StrippedAt(s, r', i');
    BlankParts(s, i, r);
    BlankParts(s, i', r');
    if r != "" && r' != "" {
      SameStart(s, r, i, r', i');
      SameEnd(s, r, i, r', i');
    }
  }

  /** Two stripped parts that both start with a non-space start at the same index. */
  lemma SameStart(s: string, r: string, i: int, r': string, i': int)
    requires StrippedAt(s, r, i) && StrippedAt(s, r', i')
    requires r != "" && r' != "" && !IsSpace(r[0]) && !IsSpace(r'[0])
    ensures i == i'
  {
  }

  /** Two stripped parts that both end with a non-space end at the same index. */
  lemma SameEnd(s: string, r: string, i: int, r': string, i': int)
    requires StrippedAt(s, r, i) && StrippedAt(s, r', i')
    requires r != "" && r' != "" && !IsSpace(r[|r| - 1]) && !IsSpace(r'[|r'| - 1])
    ensures i + |r| == i' + |r'|
  {
  }

  /** An empty stripped part means the whole string is blank; in a blank string every part is blank. */
  lemma BlankParts(s: string, i: int, r: string)
    requires StrippedAt(s, r, i)
    ensures r == "" ==> IsBlank(s)
    ensures IsBlank(s) ==> IsBlank(r)
  {
    if r == "" {
      var head, tail := s[..i], s[i..];
      forall k | 0 <= k < |s| ensures IsSpace(s[k]) {
        if k < i { assert head[k] == s[k]; } else { assert tail[k - i] == s[k]; }
      }
    }
    if IsBlank(s) {
      forall k | 0 <= k < |r| ensures IsSpace(r[k]) {
        assert r[k] == s[i + k];
      }
    }
  }

  /** `s.startswith(p)`. */
  predicate StartsWith(s: string, p: string) {
    |p| <= |s| && s[..|p|] == p
  }

  /** `s[n:]`, which is empty rather than an error when `n` is past the end. */
  function Drop(s: string, n: nat): (r: string)
    ensures |r| == if n <= |s| then |s| - n else 0
    ensures forall i :: 0 <= i < |r| ==> r[i] == s[n + i]
  {
    if n <= |s| then s[n..] else ""
  }

  /** `s[:n]`, which is the whole string when `n` is past the end. */
  function Take(s: string, n: nat): (r: string)
    ensures |r| == if n <= |s| then n else |s|
    ensures r == s[..|r|]
  {
    if n <= |s| then s[..n] else s
  }

  /** `s.replace(from, to)` for single characters. */
  function ReplaceChar(s: string, from: char, to: char): (r: string)
    ensures |r| == |s|
    ensures forall i :: 0 <= i < |s| ==> r[i] == if s[i] == from then to else s[i]
  {
    if s == [] then [] else [if s[0] == from then to else s[0]] + ReplaceChar(s[1..], from, to)
  }

  /**
   * `s.split(sep)` for a non-empty separator: cuts at the leftmost
   * occurrences, which never overlap, and always yields at least one part.
   */
  function Split(s: string, sep: string): (parts: seq<string>)
    requires sep != ""
    ensures |parts| >= 1
    ensures |parts[0]| <= |s| && parts[0] == s[..|parts[0]|]
    ensures forall k :: 0 <= k < |parts| ==> !Contains(parts[k], sep)
    ensures forall i :: 0 <= i < |parts[0]| ==> !OccursAt(s, sep, i)
    decreases |s|
  {
    if |s| < |sep| then [s]
    else if s[..|sep|] == sep then [""] + Split(s[|sep|..], sep)
    else
      var rest := Split(s[1..], sep);
      var first := [s[0]] + rest[0];
      assert first == s[..|first|];
      assert forall i :: 0 <= i < |first| ==> !OccursAt(s, sep, i) by {
        forall i | 0 < i < |first| ensures !OccursAt(s, sep, i) {
          var t := s[1..];
          if OccursAt(s, sep, i) {
            assert t[i - 1..i - 1 + |sep|] == s[i..i + |sep|];
            assert OccursAt(t, sep, i - 1);
          }
        }
      }
      assert !Contains(first, sep) by {
        forall i | OccursAt(first, sep, i) ensures false {
          if i != 0 {
            assert first[i..i + |sep|] == rest[0][i - 1..i - 1 + |sep|];
            assert OccursAt(rest[0], sep, i - 1);
          }
        }
      }
      [first] + rest[1..]
  }

  /** `sep` occurs in `s` starting at index `i`. */
  predicate OccursAt(s: string, sep: string, i: int) {
    0 <= i <= |s| - |sep| && s[i..i + |sep|] == sep
  }

  /** `sep in s`. */
  ghost predicate Contains(s: string, sep: string) {
    exists i :: OccursAt(s, sep, i)
  }

  /** After a separator found at the very start, the remaining parts are the split of the text after it. */
  lemma {:induction false} SplitAfterFirstCut(s: string, sep: string)
    requires sep != ""
    ensures var parts := Split(s, sep);
      |parts| > 1 ==>
        && |parts[0]| + |sep| <= |s|
        && OccursAt(s, sep, |parts[0]|)
        && parts[1..] == Split(s[|parts[0]| + |sep|..], sep)
    decreases |s|, 1
  {
    if |s| >= |sep| && s[..|sep|] != sep {
      SplitAfterFirstCutShifted(s, sep);
    }
  }

  /** The case of `SplitAfterFirstCut` where `s` does not start with `sep`: the cut moves one place right. */
  lemma {:induction false} SplitAfterFirstCutShifted(s: string, sep: string)
    requires sep != "" && |s| >= |sep| && s[..|sep|] != sep
    ensures var parts := Split(s, sep);
      |parts| > 1 ==>
        && |parts[0]| + |sep| <= |s|
        && OccursAt(s, sep, |parts[0]|)
        && parts[1..] == Split(s[|parts[0]| + |sep|..], sep)
    decreases |s|, 0
  {
    var t := s[1..];
    var rest := Split(t, sep);
    assert Split(s, sep) == [[s[0]] + rest[0]] + rest[1..];
    SplitAfterFirstCut(t, sep);
    if |rest| > 1 {
      var n := |rest[0]|;
      assert t[n..n + |sep|] == s[1 + n..1 + n + |sep|];
      assert t[n + |sep|..] == s[1 + n + |sep|..];
    }
  }

  /** `sep.join(parts)`. */
  function Join(parts: seq<string>, sep: string): string {
    if |parts| == 0 then ""
    else if |parts| == 1 then parts[0]
    else parts[0] + sep + Join(parts[1..], sep)
  }

  /** Joining the parts of a split with the same separator gives back the original text. */
  lemma {:induction false} JoinSplit(s: string, sep: string)
    requires sep != ""
    ensures Join(Split(s, sep), sep) == s
    decreases |s|
  {
    if |s| < |sep| {
    } else if s[..|sep|] == sep {
      var tail := Split(s[|sep|..], sep);
      JoinSplit(s[|sep|..], sep);
      assert Split(s, sep) == [""] + tail;
      calc {
        Join([""] + tail, sep);
        { assert ([""] + tail)[1..] == tail; }
        "" + sep + Join(tail, sep);
        sep + s[|sep|..];
        s;
      }
    } else {
      var rest := Split(s[1..], sep);
      JoinSplit(s[1..], sep);
      var parts := [[s[0]] + rest[0]] + rest[1..];
      assert Split(s, sep) == parts;
      if |rest| == 1 {
        calc {
          Join(parts, sep);
          [s[0]] + rest[0];
          [s[0]] + Join(rest, sep);
          [s[0]] + s[1..];
          s;
        }
      } else {
        calc {
          Join(parts, sep);
          { assert parts[1..] == rest[1..]; }
          ([s[0]] + rest[0]) + sep + Join(rest[1..], sep);
          [s[0]] + (rest[0] + sep + Join(rest[1..], sep));
          [s[0]] + Join(rest, sep);
          [s[0]] + s[1..];
          s;
        }
      }
    }
  }
}

=== FILE: works.dfy ===
/**
 * The part of a Crossref work record the searcher reads, and the author
 * disambiguation rules of `find_authors` (search_doi.py:195-214).
 */
module Works {
  import opened Base
  import opened Strings

  /**
   * One element of a work's `author` list, reduced to the keys that are read.
   * An absent key is `None`; `roleFunction` is `contributor-role.function`.
   */
  datatype Author = Author(
    given: Option<string>,
    family: Option<string>,
    sequence: Option<string>,
    roleFunction: Option<string>)

  /**
   * A work's `message` object: its `author` list when that key is present,
   * and how many other keys it carries (only their number matters here).
   */
  datatype Message = Message(author: Option<seq<Author>>, otherKeys: nat)

  /** Python truthiness of the message dict: false exactly for `{}`. */
  predicate IsNonEmpty(m: Message) {
    m.author.Some? || m.otherKeys > 0
  }

  /** The given name, one space and the family name, a missing part counting as empty. */
  function GivenFamily(a: Author): string {
    a.given.GetOr("") + " " + a.family.GetOr("")
  }

  /**
   * An author's display name: given and family name joined by a space,
   * with the surrounding whitespace stripped, so an author with neither
   * name gets "".
   */
  function FullName(a: Author): (name: string)
    ensures IsStripOf(GivenFamily(a), name)
    ensures |name| <= |a.given.GetOr("")| + 1 + |a.family.GetOr("")|
  {
    Strip(GivenFamily(a))
  }

  /** An author's name is empty exactly when both the given and the family name are blank or missing. */
  lemma FullNameEmpty(a: Author)
    ensures FullName(a) == "" <==> IsBlank(a.given.GetOr("")) && IsBlank(a.family.GetOr(""))
  {
    var g, f := a.given.GetOr(""), a.family.GetOr("");
    var s := g + " " + f;
    if IsBlank(s) {
      forall k | 0 <= k < |g| ensures IsSpace(g[k]) {
        assert g[k] == s[k];
      }
      forall k | 0 <= k < |f| ensures IsSpace(f[k]) {
        assert f[k] == s[|g| + 1 + k];
      }
    }
    if IsBlank(g) && IsBlank(f) {
      forall k | 0 <= k < |s| ensures IsSpace(s[k]) {
        if k > |g| { assert s[k] == f[k - |g| - 1]; }
      }
    }
  }

  /** The explicit marker the reverse scan looks for. */
  predicate IsMarkedCorresponding(a: Author) {
    a.sequence == Some("additional") && a.roleFunction == Some("corresponding")
  }

  /** Index `i` holds the marked author closest to the end of the list. */
  ghost predicate IsLastMarked(authors: seq<Author>, i: int) {
    && 0 <= i < |authors|
    && IsMarkedCorresponding(authors[i])
    && forall j :: i < j < |authors| ==> !IsMarkedCorresponding(authors[j])
  }

  /** No author carries the marker. */
  ghost predicate NoneMarked(authors: seq<Author>) {
    forall j :: 0 <= j < |authors| ==> !IsMarkedCorresponding(authors[j])
  }

  /**
   * The reverse scan over the first `n` authors, stopping at the first
   * marked author it meets: the index of that author, if any.
   */
  function ScanFromEnd(authors: seq<Author>, n: nat): (r: Option<nat>)
    requires n <= |authors|
    ensures r.Some? ==> r.value < n && IsMarkedCorresponding(authors[r.value])
    ensures r.Some? ==> forall j :: r.value < j < n ==> !IsMarkedCorresponding(authors[j])
    ensures r.None? ==> forall j :: 0 <= j < n ==> !IsMarkedCorresponding(authors[j])
    decreases n
  {
    if n == 0 then None
    else if IsMarkedCorresponding(authors[n - 1]) then Some(n - 1)
    else ScanFromEnd(authors, n - 1)
  }

  /** The reverse scan stops exactly at the last marked author. */
  lemma ScanFindsLastMarked(authors: seq<Author>, i: int)
    requires IsLastMarked(authors, i)
    ensures ScanFromEnd(authors, |authors|) == Some(i)
  {
  }

  /** The first author: the trimmed name of `authors[0]`, if there is one. */
  function FirstAuthor(authors: seq<Author>): (r: Option<string>)
    ensures r.Some? <==> |authors| > 0
    ensures r.Some? ==> IsStripOf(GivenFamily(authors[0]), r.value)
  {
    if |authors| > 0 then Some(FullName(authors[0])) else None
  }

  /**
   * The first author depends on the first list element only: markers and
   * later authors never change it, and it is the stripped name of that
   * element.
   */
  lemma FirstAuthorIgnoresRest(first: Author, more: seq<Author>)
    ensures FirstAuthor([first] + more) == Some(Strip(GivenFamily(first)))
  {
    var r := FirstAuthor([first] + more);
    assert ([first] + more)[0] == first;
    StripUnique(GivenFamily(first), r.value);
  }

  /**
   * The corresponding author: the name of the marked author nearest the end,
   * unless there is none or that name is empty, in which case the name of
   * the last author (which may itself be empty); `None` for an empty list.
   */
  function CorrespondingAuthor(authors: seq<Author>): (r: Option<string>)
    ensures |authors| == 0 ==> r.None?
    ensures forall i :: IsLastMarked(authors, i) && FullName(authors[i]) != "" ==>
      r == Some(FullName(authors[i]))
    ensures forall i :: IsLastMarked(authors, i) && FullName(authors[i]) == "" ==>
      r == Some(FullName(authors[|authors| - 1]))
    ensures NoneMarked(authors) && |authors| > 0 ==> r == Some(FullName(authors[|authors| - 1]))
  {
    assert forall i :: IsLastMarked(authors, i) ==> ScanFromEnd(authors, |authors|) == Some(i) by {
      forall i | IsLastMarked(authors, i) ensures ScanFromEnd(authors, |authors|) == Some(i) {
        ScanFindsLastMarked(authors, i);
      }
    }
    var marked := match ScanFromEnd(authors, |authors|)
      case Some(i) => Some(FullName(authors[i]))
      case None => None;
    if (marked.None? || marked.value == "") && |authors| > 0 then
      Some(FullName(authors[|authors| - 1]))
    else
      marked
  }

  /** Whatever the markers, a non-empty list always yields some corresponding author, taken from the list. */
  lemma CorrespondingAuthorFromList(authors: seq<Author>)
    requires |authors| > 0
    ensures CorrespondingAuthor(authors).Some?
    ensures exists i :: 0 <= i < |authors| && CorrespondingAuthor(authors) == Some(FullName(authors[i]))
  {
    var r := CorrespondingAuthor(authors);
    match ScanFromEnd(authors, |authors|)
    case Some(i) =>
      if FullName(authors[i]) != "" {
        assert r == Some(FullName(authors[i]));
      } else {
        assert r == Some(FullName(authors[|authors| - 1]));
      }
    case None =>
      assert r == Some(FullName(authors[|authors| - 1]));
  }

  /** An author's name in the form `find_authors` builds it, for a given and a family name without outer spaces. */
  lemma NameOfGivenFamily(a: Author, given: string, family: string)
    requires a.given == Some(given) && a.family == Some(family)
    requires given != "" && !IsSpace(given[0]) && !IsSpace(given[|given| - 1])
    requires family != "" && !IsSpace(family[0]) && !IsSpace(family[|family| - 1])
    ensures FullName(a) == given + " " + family
  {
    var s := given + " " + family;
    assert s[0] == given[0];
    assert TrimStart(s) == s;
    assert s[|s| - 1] == family[|family| - 1];
    assert TrimEnd(s) == s;
  }

  /** The two authors of the worked example: "A One", listed first, and "B Two", marked corresponding. */
  function ExampleFirst(): Author {
    Author(Some("A"), Some("One"), Some("first"), None)
  }

  function ExampleMarked(): Author {
    Author(Some("B"), Some("Two"), Some("additional"), Some("corresponding"))
  }

  lemma ExampleNames()
    ensures FullName(ExampleFirst()) == "A One"
    ensures FullName(ExampleMarked()) == "B Two"
  {
    ExampleFirstName();
    ExampleMarkedName();
  }

  lemma ExampleFirstName()
    ensures FullName(ExampleFirst()) == "A One"
  {
    NameOfGivenFamily(ExampleFirst(), "A", "One");
    ExampleSpellings();
  }

  lemma ExampleMarkedName()
    ensures FullName(ExampleMarked()) == "B Two"
  {
    NameOfGivenFamily(ExampleMarked(), "B", "Two");
    ExampleSpellings();
  }

  /**
   * The two example names as concatenations of their given name, a space
   * and their family name. Stated once here so that the name lemmas above
   * only meet the literal strings and the solver does not unfold the
   * concatenation inside each of them.
   */
  lemma ExampleSpellings()
    ensures "A" + " " + "One" == "A One"
    ensures "B" + " " + "Two" == "B Two"
  {
  }

  /**
   * An explicitly marked later author wins over list position: with "A One"
   * first and "B Two" marked additional and corresponding, the first author
   * is "A One" and the corresponding author "B Two".
   */
  lemma MarkedAuthorExample()
    ensures FirstAuthor([ExampleFirst(), ExampleMarked()]) == Some("A One")
    ensures CorrespondingAuthor([ExampleFirst(), ExampleMarked()]) == Some("B Two")
  {
    ExampleNames();
    assert IsLastMarked([ExampleFirst(), ExampleMarked()], 1);
  }
}
